=== FILE: README.md ===
# Smart Issue Board — a Dafny model

Smart Issue Board is a small React single-page application backed by Firebase. Signed-in users
create, edit, filter and delete issues kept in a Firestore collection `issues`. This project
models its core in Dafny and proves properties of that model:

- **Store client** (`issue_service.dfy`, module `IssueService`). The `issues` collection is a
  class holding a map from document id to document, plus the ids in creation order. It covers
  create, fetch newest-first, the status update, the full update and delete, with their fixed
  error messages. The document id, the server clock, the current user's email and the failure of
  a remote call are parameters.
- **Issue table** (`issue_list.dfy`). The stable newest-first sort on `createdAt` is an insertion
  sort. A missing timestamp sorts as the epoch. The module also covers the empty-state /
  table choice.
- **Table row** (`issue_item.dfy`). The badge CSS classes, and the edit-mode state of one row as
  a class: `editData`, `isEditing`, `statusError`, and the log of update and delete callbacks.
  The only forbidden move is Open straight to Done, judged from the stored `issue.status`.
- **Create form** (`create_issue_form.dfy`). The advisory similar-title warning, which tests
  containment in both directions and ignores case. The submit, create-anyway and cancel handlers
  act on `formData`, `showSimilarWarning` and `error`.
- **Dashboard** (`dashboard.dfy`). The status and priority filters, the blocking duplicate
  check before a create, and the update dispatch. The create, update and delete handlers
  re-fetch from the store after a successful write. The create form is wired to the page's create handler.
- **Login page** (`login.dfy`). The emptiness check, then the email pattern
  `^[^\s@]+@[^\s@]+\.[^\s@]+$`. The pattern is a ghost predicate over the language it matches,
  and an executable scan is proved equal to it. The submit handler reports the signed-in user
  and navigates.
- **Application shell** (`app.dfy`). The `user`/`loading` state kept by the auth listener,
  `handleLogin`/`handleLogout`, and the route table with its redirects.
- `text.dfy` holds the string operations the code uses: `trim`, `toLowerCase`, `includes`, and
  `replace` with a single-character pattern. `issues.dfy` holds the records. `wrappers.dfy`
  holds `Option`, `Outcome` and the `message || fallback` idiom.

Behaviour of the code as written, which the model keeps and states as lemmas:

- A row's Save sends the whole `editData`. Its `status` is always set, so the dashboard writes
  only `{status}`. Edits to title, description, priority and assignee never reach the store
  (`Dashboard.SaveWritesOnlyStatus`).
- The form warns on containment in either direction. The dashboard blocks only when an existing
  title contains the new one (`Dashboard.WarningWithoutBlock`). So for "Login bug" against an
  existing "Cannot login", neither check fires, because neither lower-cased title contains the
  other (`CreateIssueForm.NoWarningWithoutContainment`), although one might expect this pair to
  warn.
- The dashboard's block is not merely advisory: a blocked create never reaches the store. It has
  no blank-title guard (`Dashboard.EmptyTitleMatchesAnyLoaded`). The dashboard's create handler
  always resolves, so the form clears itself and shows no error even after a blocked or failed
  create (`Dashboard.DashboardPage.SubmitCreateForm`).

## Model

| member | source | states |
|---|---|---|
| Wrappers.MessageOr | src/pages/Login.jsx:38 | `err.message \|\| fallback`: a non-empty message is kept and an empty one gives the fallback |
| Text.TrimStartDropsSpace | src/components/CreateIssueForm.jsx:21 | `trimStart` keeps a suffix of the input, everything it drops is whitespace, and the result does not start with whitespace |
| Text.TrimEndDropsSpace | src/components/CreateIssueForm.jsx:21 | `trimEnd` keeps a prefix of the input, everything it drops is whitespace, and the result does not end with whitespace |
| Text.Trim | src/components/CreateIssueForm.jsx:21 | `trim` returns a contiguous middle of the input whose cut-off prefix and suffix are all whitespace, and a non-empty result neither starts nor ends with whitespace |
| Text.TrimmedMiddle | src/components/CreateIssueForm.jsx:21 | cutting a whitespace prefix and then a whitespace suffix leaves such a middle, with no whitespace at either end |
| Text.IsSpace | src/components/CreateIssueForm.jsx:21 | defines the whitespace `trim` removes and `\s` matches: the ECMAScript white-space and line-terminator characters |
| Text.IsBlank | src/components/CreateIssueForm.jsx:38 | defines `!s.trim()` as every character being whitespace (tied to `Trim` by `Text.TrimEmptyIffBlank`) |
| Text.TrimEmptyIffBlank | src/components/CreateIssueForm.jsx:38-46 | `s.trim()` is empty exactly when every character of `s` is whitespace |
| Text.Lower | src/components/IssueItem.jsx:76 | lower-casing keeps the length and maps each character independently |
| Text.LowerIdempotent | src/components/CreateIssueForm.jsx:23-24 | lower-casing twice equals lower-casing once |
| Text.LowerCharKeepsSpace | src/components/CreateIssueForm.jsx:21-24 | lower-casing a character neither creates nor removes whitespace |
| Text.LowerKeepsBlank | src/components/CreateIssueForm.jsx:21-24 | a title is blank exactly when its lower-cased form is blank |
| Text.ContainsIff | src/pages/Dashboard.jsx:37 | `includes` holds exactly when the pattern occurs at some offset |
| Text.Contains | src/components/CreateIssueForm.jsx:23-24 | defines `includes` recursively: the pattern is a prefix here or included in the rest (tied to the offset definition by `Text.ContainsIff`) |
| Text.ContainsEmpty | src/pages/Dashboard.jsx:37 | every string includes the empty string |
| Text.ContainsSelf | src/components/CreateIssueForm.jsx:23-24 | every string includes itself |
| Text.ContainsShorter | src/components/CreateIssueForm.jsx:23-24 | a string can only include a pattern no longer than itself |
| Text.ContainsKeepsChars | src/components/CreateIssueForm.jsx:23-24 | every character of an included pattern occurs in the string |
| Text.MissingCharExcludes | src/components/CreateIssueForm.jsx:23-24 | a pattern holding a character the string lacks is not included |
| Text.MutualContainment | src/components/CreateIssueForm.jsx:23-24 | two strings that include each other are equal |
| Text.IndexOf | src/pages/Login.jsx:24 | the index found is within the string and holds the character, or is the length when there is none |
| Text.IndexOfIsFirst | src/pages/Login.jsx:24 | no earlier index holds the character |
| Text.IndexOfAt | src/components/IssueItem.jsx:76 | the first index holding the character is the one found |
| Text.ReplaceFirst | src/components/IssueItem.jsx:76 | `replace(' ', '-')` keeps the length |
| Text.ReplaceFirstNoMatch | src/components/IssueItem.jsx:76 | a string without the pattern character is returned unchanged |
| Text.ReplaceFirstAt | src/components/IssueItem.jsx:76 | only the first space, at its index `k`, becomes a dash; the rest is unchanged |
| Text.ReplaceFirstEach | src/components/IssueItem.jsx:76 | character by character, the first occurrence and only it is replaced; every other character stays |
| Issues.StatusOnly | src/issueService.js:61-63 | the status write carries the status and no other field |
| Issues.FullPatch | src/components/IssueItem.jsx:42 | an `editData` sent as an update carries all five editable fields |
| Issues.Record | src/issueService.js:47-50 | a fetched record carries the document id and the document's timestamp |
| Issues.FieldsOf | src/components/IssueItem.jsx:8-14 | defines the five editable fields of an issue, as `editData` starts and is restored on cancel |
| Issues.CreatedKey | src/components/IssueList.jsx:8-9 | defines the time an issue sorts by: its `createdAt`, or the epoch when it has none |
| IssueService.NewDoc | src/issueService.js:22-30 | a new document is Open, created by the current user's email, at the server time |
| IssueService.CreateIgnoresStatus | src/issueService.js:15-26 | inputs that differ only in status create the same document |
| IssueService.CreatedRecordRoundTrip | src/issueService.js:22-30 | fetching a created document gives back the input fields with status Open, and its creator |
| IssueService.ApplyPatch | src/issueService.js:73 | each of the five editable fields is set when the patch carries it and kept when it does not; `createdBy` and `createdAt` are kept |
| IssueService.StatusUpdateTouchesOnlyStatus | src/issueService.js:59-63 | a status write changes the status and nothing else |
| IssueService.FullUpdateStoresEdit | src/issueService.js:71-73 | a full write makes the stored editable fields equal to the edit |
| IssueService.ApplyPatchIdempotent | src/issueService.js:71-73 | writing the same patch twice equals writing it once |
| IssueService.Without | src/issueService.js:83 | removing an id from the creation order keeps exactly the other ids |
| IssueService.WithoutKeepsIncreasing | src/issueService.js:81-83 | after a delete, creation times are still strictly increasing along the creation order |
| IssueService.Listing | src/issueService.js:40-50 | the query result has one record per stored id, newest first, each being the id plus the document |
| IssueService.ListingRecords | src/issueService.js:47-50 | every listed record is the stored document under its own id |
| IssueService.ListingCoversAll | src/issueService.js:40-50 | every stored document appears in the listing |
| IssueService.ListingNewestFirst | src/issueService.js:40-43 | the listing is strictly ordered by `createdAt`, newest first |
| IssueService.IssueStore.constructor | src/issueService.js:22 | the collection starts empty and valid |
| IssueService.IssueStore.CreateIssue | src/issueService.js:15-35 | a failure throws "Failed to create issue. Please try again." and writes nothing; success adds exactly the new document and keeps the store valid |
| IssueService.IssueStore.FetchIssues | src/issueService.js:38-56 | a failure yields `[]` without throwing; success yields the listing: distinct ids, each record a stored document, all documents, strictly newest first |
| IssueService.IssueStore.UpdateIssueStatus | src/issueService.js:59-68 | success exactly when the write does not fail and the id exists; only that document's status changes; a failure throws its fixed message and writes nothing |
| IssueService.IssueStore.UpdateIssue | src/issueService.js:71-78 | as above, with the patch applied unvalidated and "Failed to update issue. Please try again." |
| IssueService.IssueStore.DeleteIssue | src/issueService.js:81-88 | success removes exactly that id, if present, and keeps the store valid; a failure throws its fixed message and changes nothing |
| IssueList.WithTime | src/components/IssueList.jsx:7-11 | the issues of one timestamp, in list order |
| IssueList.Insert | src/components/IssueList.jsx:7-11 | inserting into a newest-first list keeps it newest first and adds exactly one element |
| IssueList.InsertPermutes | src/components/IssueList.jsx:7 | insertion adds the element to the multiset and loses nothing |
| IssueList.InsertWithTime | src/components/IssueList.jsx:7-11 | insertion goes in front of the issues with the same timestamp and keeps their order |
| IssueList.NotOlderThanHeadIsNewest | src/components/IssueList.jsx:10 | an issue at least as new as a newest-first list's head is at least as new as all of it |
| IssueList.SortNewestFirst | src/components/IssueList.jsx:7-11 | the sort is a permutation, newest first, and stable: issues with equal timestamps keep their order |
| IssueList.AdjacentNewestFirst | src/components/IssueList.jsx:10 | neighbours in the sorted table are in non-increasing time order |
| IssueList.UndatedSortsLast | src/components/IssueList.jsx:8-9 | an issue without `createdAt` sorts after every issue dated after the epoch |
| IssueList.HeadIsNewest | src/components/IssueList.jsx:7-11 | the head of a newest-first list is at least as new as every issue in it |
| IssueList.WithTimeHasHead | src/components/IssueList.jsx:7-11 | the head's timestamp group starts with the head |
| IssueList.WithTimeNonEmpty | src/components/IssueList.jsx:7-11 | every issue's timestamp group is non-empty |
| IssueList.SortedIsUnique | src/components/IssueList.jsx:7-11 | two newest-first lists with the same timestamp groups are equal, so the stable sort's result is unique |
| IssueList.SortKeepsSorted | src/components/IssueList.jsx:7-11 | sorting a newest-first list changes nothing |
| IssueList.SortIdempotent | src/components/IssueList.jsx:7-11 | sorting twice equals sorting once |
| IssueList.SortDependsOnlyOnTimeGroups | src/components/IssueList.jsx:7-11 | inputs with the same timestamp groups sort to the same table |
| IssueList.Render | src/components/IssueList.jsx:13-47 | the empty state shows exactly when there are no issues; otherwise the rows are the issues, newest first |
| IssueItem.DoneReachableThroughInProgress | src/components/IssueItem.jsx:21-25 | In Progress is always allowed, and so is In Progress to Done; Done is allowed directly exactly when the stored status is not Open |
| IssueItem.TransitionAllowed | src/components/IssueItem.jsx:22-37 | defines the status rule both handlers test: every move except stored Open to Done |
| IssueItem.PriorityClass | src/components/IssueItem.jsx:75-77 | the class is `priority-badge priority-` followed by the value character by character, lower-cased, with its first space (and only that one) a dash |
| IssueItem.StatusClass | src/components/IssueItem.jsx:80-82 | the class is `status-badge status-` followed by the value character by character, lower-cased, with its first space (and only that one) a dash |
| IssueItem.InProgressBadge | src/components/IssueItem.jsx:80-82 | In Progress gets `status-badge status-in-progress` |
| IssueItem.LowerInProgress | src/components/IssueItem.jsx:81 | In Progress lower-cases to `in progress` |
| IssueItem.DashInProgress | src/components/IssueItem.jsx:81 | `in progress` with its space replaced is `in-progress` |
| IssueItem.DoneBadge | src/components/IssueItem.jsx:80-82 | Done gets `status-badge status-done` |
| IssueItem.HighPriorityBadge | src/components/IssueItem.jsx:75-77 | High gets `priority-badge priority-high` |
| IssueItem.OnlyFirstSpaceReplaced | src/components/IssueItem.jsx:81 | only the first space becomes a dash: `A B C` gives `status-a-b c` |
| IssueItem.BadgeSuffixIsOneToken | src/components/IssueItem.jsx:76 | a value with a single space gives a suffix without spaces |
| IssueItem.IssueRow.constructor | src/components/IssueItem.jsx:7-15 | `editData` copies the issue; not editing; no error |
| IssueItem.IssueRow.Rerender | src/components/IssueList.jsx:36-42 | a new `issue` prop replaces the issue and leaves `editData` as it was |
| IssueItem.IssueRow.StartEdit | src/components/IssueItem.jsx:183 | enters edit mode and changes nothing else |
| IssueItem.IssueRow.ChangeField | src/components/IssueItem.jsx:96-139 | each input replaces its own field of `editData` and nothing else |
| IssueItem.IssueRow.HandleStatusChange | src/components/IssueItem.jsx:18-30 | Open to Done (from the stored status) shows the error and sends nothing; any other move clears the error, sends `{status}` and mirrors it in `editData` |
| IssueItem.IssueRow.HandleSave | src/components/IssueItem.jsx:33-44 | a refused save keeps edit mode; otherwise the whole `editData` is sent and edit mode ends; while no re-render changed the issue under a pending edit, the save is never refused |
| IssueItem.IssueRow.HandleDelete | src/components/IssueItem.jsx:189 | asks the parent to delete this issue's id |
| IssueItem.IssueRow.HandleCancel | src/components/IssueItem.jsx:47-57 | restores `editData` from the issue, leaves edit mode, clears the error |
| IssueItem.SaveAfterOwnHandlers | src/components/IssueItem.jsx:18-44 | editing an Open issue, moving it to In Progress and saving, with no re-render, sends both updates and leaves edit mode |
| IssueItem.PendingStatusDoesNotUnlockDone | src/components/IssueItem.jsx:22-37 | after choosing In Progress on an Open issue, Done is still refused until the parent re-renders |
| IssueItem.DoneAfterRefresh | src/components/IssueItem.jsx:18-30 | once the re-render shows In Progress, Done is sent |
| CreateIssueForm.EmptyForm | src/components/CreateIssueForm.jsx:4-10 | the empty form: empty texts, priority Medium, status Open |
| CreateIssueForm.SimilarExists | src/components/CreateIssueForm.jsx:22-25 | true exactly when some loaded title and the typed title overlap, ignoring case |
| CreateIssueForm.TitlesOverlap | src/components/CreateIssueForm.jsx:23-24 | defines overlap: either lower-cased title includes the other |
| CreateIssueForm.WarningFor | src/components/CreateIssueForm.jsx:21-29 | defines the warning: the title is not blank and some loaded title overlaps it |
| CreateIssueForm.OverlapSymmetric | src/components/CreateIssueForm.jsx:23-24 | overlap does not depend on the order of the two titles |
| CreateIssueForm.OverlapIgnoresCase | src/components/CreateIssueForm.jsx:23-24 | lower-casing the typed title does not change overlap |
| CreateIssueForm.WarningIgnoresCase | src/components/CreateIssueForm.jsx:21-29 | lower-casing the typed title does not change the warning |
| CreateIssueForm.BlankTitleNeverWarns | src/components/CreateIssueForm.jsx:21-28 | a title that trims to nothing never shows the warning |
| CreateIssueForm.EmptyExistingTitleMatchesAll | src/components/CreateIssueForm.jsx:24 | a loaded issue with an empty title makes every non-blank title warn |
| CreateIssueForm.SameTitleWarns | src/components/CreateIssueForm.jsx:21-26 | a non-blank title equal to a loaded one, up to case, warns |
| CreateIssueForm.OverlapBothWaysIffSameTitle | src/components/CreateIssueForm.jsx:23-24 | both containment tests hold exactly when the two titles are equal up to case |
| CreateIssueForm.NoWarningWithoutContainment | src/components/CreateIssueForm.jsx:22-25 | "Login bug" against a loaded "Cannot login" does not warn |
| CreateIssueForm.LowerLoginBug | src/components/CreateIssueForm.jsx:23 | "Login bug" lower-cases to "login bug" |
| CreateIssueForm.LowerCannotLogin | src/components/CreateIssueForm.jsx:23 | "Cannot login" lower-cases to "cannot login" |
| CreateIssueForm.CannotLoginLacksLoginBug | src/components/CreateIssueForm.jsx:23 | "cannot login" does not include "login bug" |
| CreateIssueForm.SubmitError | src/components/CreateIssueForm.jsx:38-46 | "Title is required" exactly for a blank title; "Description is required" exactly for a non-blank title with a blank description; none otherwise |
| CreateIssueForm.FormState.constructor | src/components/CreateIssueForm.jsx:4-12 | the empty form, no warning, no error |
| CreateIssueForm.FormState.ChangeField | src/components/CreateIssueForm.jsx:134-175 | the other inputs replace their own field and leave the title alone |
| CreateIssueForm.FormState.HandleTitleChange | src/components/CreateIssueForm.jsx:15-30 | stores the title; the warning shows exactly when the title is non-blank and overlaps a loaded title |
| CreateIssueForm.FormState.HandleSubmit | src/components/CreateIssueForm.jsx:33-66 | a validation error is shown and nothing is submitted; otherwise the form data is submitted, then reset on success or kept with the error message (or the default) on failure |
| CreateIssueForm.FormState.HandleCreateAnyway | src/components/CreateIssueForm.jsx:69-89 | always hides the warning; submits only a valid form, and silently does nothing for an invalid one |
| CreateIssueForm.FormState.HandleCancel | src/components/CreateIssueForm.jsx:92-95 | hides the warning and clears only the title |
| Dashboard.FilterIssues | src/pages/Dashboard.jsx:104-110 | the view is never longer than the loaded list |
| Dashboard.FilterMatches | src/pages/Dashboard.jsx:105-108 | defines one filter: `All` matches everything, any other value must equal the field |
| Dashboard.InView | src/pages/Dashboard.jsx:105-109 | defines the view test: both filters match |
| Dashboard.FilterMembership | src/pages/Dashboard.jsx:104-110 | an issue is in the view exactly when it is loaded and both filters match it |
| Dashboard.FilterConcat | src/pages/Dashboard.jsx:104-110 | filtering keeps order: it distributes over concatenation |
| Dashboard.FilterAllIsIdentity | src/pages/Dashboard.jsx:104-110 | with both filters at All the view is the loaded list |
| Dashboard.FilterIsConjunction | src/pages/Dashboard.jsx:105-109 | the two filters combine as an AND: the status filter, then the priority filter |
| Dashboard.FilterKeepsNewestFirst | src/pages/Dashboard.jsx:104-110 | a newest-first list stays newest first when filtered |
| Dashboard.FilterCommutesWithTime | src/pages/Dashboard.jsx:104-110 | filtering keeps the order within each timestamp group |
| Dashboard.SortOfFilter | src/pages/Dashboard.jsx:104-174 | the table of the filtered issues equals the filtered table of all issues |
| Dashboard.FindSimilar | src/pages/Dashboard.jsx:36-38 | finds an issue exactly when some loaded title includes the new title, ignoring case, and the issue found is such a match |
| Dashboard.Duplicates | src/pages/Dashboard.jsx:37 | defines the blocking test: the loaded title, lower-cased, includes the new one |
| Dashboard.FindSimilarIsFirst | src/pages/Dashboard.jsx:36-38 | the issue found is the first match in list order |
| Dashboard.BlockImpliesWarning | src/pages/Dashboard.jsx:36-43 | every create the dashboard blocks was warned about by the form |
| Dashboard.WarningWithoutBlock | src/pages/Dashboard.jsx:36-38 | "Login bug" against a loaded "Login" warns in the form but is not blocked |
| Dashboard.EmptyTitleMatchesAnyLoaded | src/pages/Dashboard.jsx:36-38 | with any issue loaded, an empty title is matched |
| Dashboard.Dispatched | src/pages/Dashboard.jsx:73-77 | an update with a non-empty status becomes a status-only write; any other update is written as given |
| Dashboard.HasTruthyStatus | src/pages/Dashboard.jsx:73 | defines `updateData.status` being truthy: present and non-empty |
| Dashboard.SaveWritesOnlyStatus | src/pages/Dashboard.jsx:73-74 | a saved row's edit changes only the stored status |
| Dashboard.StatuslessUpdateWritesPatch | src/pages/Dashboard.jsx:75-76 | an update without a status is written unchanged |
| Dashboard.TableKeepsFetchOrder | src/pages/Dashboard.jsx:104-174 | the table shows a filtered fetch in the order fetched |
| Dashboard.DashboardPage.constructor | src/pages/Dashboard.jsx:10-12 | no issues, both filters All |
| Dashboard.DashboardPage.View | src/pages/Dashboard.jsx:104-110 | defines `filteredIssues`: the loaded issues that pass both filters, in order |
| Dashboard.DashboardPage.LoadIssues | src/pages/Dashboard.jsx:16-28 | the issues become the fetch result (`[]` on a failed read) |
| Dashboard.DashboardPage.SetStatusFilter | src/pages/Dashboard.jsx:145 | sets the status filter only |
| Dashboard.DashboardPage.SetPriorityFilter | src/pages/Dashboard.jsx:158 | sets the priority filter only |
| Dashboard.DashboardPage.HandleCreateIssue | src/pages/Dashboard.jsx:31-55 | a duplicate or a failed write changes nothing; otherwise the store gains exactly the new document and the issues are re-fetched; it always resolves |
| Dashboard.DashboardPage.SubmitCreateForm | src/pages/Dashboard.jsx:131 | the filters never change; an invalid form keeps its submitted flag and warning; a valid submit always clears the form with no error, even when blocked or failed; a valid, unblocked, successful create stores the new document under the new id and re-fetches the list |
| Dashboard.DashboardPage.HandleUpdateIssue | src/pages/Dashboard.jsx:71-85 | the store receives the dispatched write; on success the issues are re-fetched; on failure nothing changes |
| Dashboard.DashboardPage.HandleDeleteIssue | src/pages/Dashboard.jsx:88-101 | nothing happens unless confirmed; a confirmed delete removes the id and re-fetches; on failure nothing changes |
| Login.ValidEmailIsPattern | src/pages/Login.jsx:24-25 | the scan accepts exactly the strings the email pattern matches |
| Login.MatchesEmailPattern | src/pages/Login.jsx:24-25 | defines the language of `^[^\s@]+@[^\s@]+\.[^\s@]+$` by the positions of its `@` and a later `.` |
| Login.ValidEmail | src/pages/Login.jsx:24-25 | defines the scan: no whitespace, a first `@` after the first character, no second `@`, and an inner dot after it |
| Login.ValidEmailMatches | src/pages/Login.jsx:24 | a string the scan accepts matches the pattern |
| Login.PatternIsValidEmail | src/pages/Login.jsx:24 | a string the pattern matches passes the scan |
| Login.PartsAreValidEmail | src/pages/Login.jsx:24 | local part, `@`, run, `.`, run, each non-empty with no space or `@`, passes the scan |
| Login.ValidateLogin | src/pages/Login.jsx:17-28 | "Please fill in all fields" exactly when a field is empty; "Please enter a valid email address" exactly when both are filled and the email fails the pattern; no error otherwise |
| Login.WhitespacePasswordAccepted | src/pages/Login.jsx:18 | a password of spaces passes validation |
| Login.DotAfterAtRejected | src/pages/Login.jsx:24 | `a@.com` is rejected |
| Login.TwoAtSignsRejected | src/pages/Login.jsx:24 | `a@b@c.d` is rejected |
| Login.LoginPage.constructor | src/pages/Login.jsx:7-9 | empty inputs, no error, nothing called |
| Login.LoginPage.SetEmail | src/pages/Login.jsx:57 | sets the email only |
| Login.LoginPage.SetPassword | src/pages/Login.jsx:69 | sets the password only |
| Login.LoginPage.HandleSubmit | src/pages/Login.jsx:13-40 | a validation error is shown and sign-in is not called; otherwise sign-in is called; success reports `{email, uid}` and navigates to `/dashboard`; failure shows the message or the default |
| App.Route | src/App.jsx:54-78 | `/dashboard` renders the dashboard exactly when a user is set and redirects to `/login` otherwise; `/login` and `/signup` render their form exactly when no user is set; `/` always redirects to `/dashboard` |
| App.Follow | src/App.jsx:60-75 | defines following `<Navigate>` redirects, at most a given number of them |
| App.Render | src/App.jsx:39-52 | only the loading screen renders while loading |
| App.RedirectsSettleInTwoHops | src/App.jsx:57-75 | two redirects always reach a page; it is the dashboard exactly when signed in on a known path, and the login form exactly when signed out on `/`, `/login` or `/dashboard` |
| App.RootNeedsTwoHopsSignedOut | src/App.jsx:69-75 | signed out, `/` needs two redirects to reach the login form |
| App.AppState.constructor | src/App.jsx:11-12 | no user, loading |
| App.AppState.OnAuthStateChanged | src/App.jsx:16-23 | each callback sets the user to `{email, uid}` or none and ends loading |
| App.AppState.HandleLogin | src/App.jsx:29-31 | sets the user and leaves loading alone |
| App.AppState.HandleLogout | src/App.jsx:34-36 | clears the user and leaves loading alone |
| App.AppState.Navigate | src/pages/Login.jsx:36 | moves to the given path |
| App.AppState.SubmitLogin | src/App.jsx:60 | the typed email and password stay; an invalid form shows its message and calls nothing; a valid form calls sign-in once; success clears the error, reports the user, sets the session and the shell shows that user's dashboard; failure shows the provider's message or the fixed fallback |
| App.AppState.DashboardLogout | src/pages/Dashboard.jsx:58-68 | whether or not sign-out fails, the user is cleared and the login form shows |

## Left out

- Firebase itself is not part of this model: Firestore queries, `serverTimestamp`, the auth listener's subscription and `firebase.js` configuration. The store is a map with creation order, and the clock, the id allocator, the current user and every remote failure are parameters.
- Text.Lower: lower-cases ASCII letters only; JavaScript's `toLowerCase` covers all of Unicode.
- `formatDate` and its `Date` parsing and locale formatting are not modelled. So is the case of an unparseable `createdAt` string, which gives the comparator a NaN.
- Timestamps are integers. A Firestore `Timestamp` and a date string are not distinguished. A missing `createdAt` sorts as the epoch (0).
- IssueList.SortNewestFirst: is specified as the unique stable newest-first order, not as the browser's particular sort. JavaScript's `Array.prototype.sort` is stable, so the two agree.
- IssueService.IssueStore.FetchIssues: equal server timestamps are not modelled. `CreateIssue` and `Dashboard.DashboardPage.HandleCreateIssue` require the server clock to give each create a later time than every stored document, so the query's tie-break order never matters.
- IssueService.ApplyPatch: a patch carries only the five editable fields, so it can never overwrite `createdAt` or `createdBy`. `updateIssue` passes any object to `updateDoc` and would overwrite them if a caller sent them; no caller in the application does.
- Issues.Record: the document fields are typed, so a stored field named `id` cannot override the document id as the spread in `fetchIssues` would allow.
- A missing `auth.currentUser` gives `createdBy: undefined`, modelled as `None`. Firestore's rejection of `undefined` values is not modelled.
- JSX markup, CSS, React Router internals, `alert` and `console` are not modelled. `window.confirm` is a boolean parameter.
- Async timing is not modelled. Every handler is one sequential step, and the fire-and-forget update of `handleStatusChange` is recorded as a call in the row's log.
- Callbacks (`onUpdateIssue`, `onDeleteIssue`, `onCreateIssue`, `onLogin`, `navigate`) are recorded in log fields. Their outcomes are parameters, except where the page wiring is modelled directly.
- The Signup page and the `authService` module (`login`, `logout`) are not part of this model. Their results are parameters.
- The `handleUpdate` / `handleDelete` no-op defaults of a row without callbacks are not modelled; the table always passes both.

=== FILE: app.dfy ===
/**
 * The application shell: the signed-in user and the loading flag kept by the authentication
 * listener, the login and logout handlers, and the route table that guards the pages.
 */
module App {
  import opened Wrappers
  import opened Issues
  import Login

  const LOGIN_PATH := "/login"
  const SIGNUP_PATH := "/signup"
  /** The path the login page navigates to, shared with it. */
  const DASHBOARD_PATH := Login.DASHBOARD_PATH
  const ROOT_PATH := "/"

  /** What one render of the shell shows for a path. */
  datatype Screen =
    | LoadingScreen
    | LoginForm
    | SignupForm
    | DashboardPage(user: UserData)
    | Redirect(to: string)
    | NoRoute

  /** The route table: the element each path renders, given the signed-in user. */
  function Route(path: string, user: Option<UserData>): (s: Screen)
    ensures s.DashboardPage? <==> path == DASHBOARD_PATH && user.Some?
    ensures s.DashboardPage? ==> s.user == user.value
    ensures s == LoginForm <==> path == LOGIN_PATH && user.None?
    ensures s == SignupForm <==> path == SIGNUP_PATH && user.None?
    ensures s == Redirect(DASHBOARD_PATH) <==>
      path == ROOT_PATH || (user.Some? && (path == LOGIN_PATH || path == SIGNUP_PATH))
    ensures s == Redirect(LOGIN_PATH) <==> path == DASHBOARD_PATH && user.None?
    ensures s == NoRoute <==> path !in {LOGIN_PATH, SIGNUP_PATH, DASHBOARD_PATH, ROOT_PATH}
  {
    if path == LOGIN_PATH then
      if user.Some? then Redirect(DASHBOARD_PATH) else LoginForm
    else if path == SIGNUP_PATH then
      if user.Some? then Redirect(DASHBOARD_PATH) else SignupForm
    else if path == DASHBOARD_PATH then
      if user.Some? then DashboardPage(user.value) else Redirect(LOGIN_PATH)
    else if path == ROOT_PATH then Redirect(DASHBOARD_PATH)
    else NoRoute
  }

  /** What the shell renders: only the loading screen while the first auth answer is pending. */
  function Render(loading: bool, path: string, user: Option<UserData>): (s: Screen)
    ensures loading ==> s == LoadingScreen
    ensures !loading ==> s != LoadingScreen
  {
    if loading then LoadingScreen else Route(path, user)
  }

  /** Follow at most `hops` redirects from `path`. */
  function Follow(path: string, user: Option<UserData>, hops: nat): Screen
    decreases hops
  {
    var s := Route(path, user);
    if s.Redirect? && hops > 0 then Follow(s.to, user, hops - 1) else s
  }

  /** Two redirects always reach a page: every path ends on a form, the dashboard or no route. */
  lemma RedirectsSettleInTwoHops(path: string, user: Option<UserData>)
    ensures !Follow(path, user, 2).Redirect?
    ensures Follow(path, user, 2).DashboardPage? <==>
      user.Some? && path in {LOGIN_PATH, SIGNUP_PATH, DASHBOARD_PATH, ROOT_PATH}
    ensures Follow(path, user, 2) == LoginForm <==>
      user.None? && path in {LOGIN_PATH, DASHBOARD_PATH, ROOT_PATH}
  {
    assert Route(LOGIN_PATH, user) == (if user.Some? then Redirect(DASHBOARD_PATH) else LoginForm);
    assert Route(DASHBOARD_PATH, user) == (if user.Some? then DashboardPage(user.value) else Redirect(LOGIN_PATH));
  }

  /** One redirect is not always enough: signed out, `/` goes to `/dashboard` and then to `/login`. */
  lemma RootNeedsTwoHopsSignedOut()
    ensures Follow(ROOT_PATH, None, 1) == Redirect(LOGIN_PATH)
    ensures Follow(ROOT_PATH, None, 2) == LoginForm
  {
  }

  class AppState {
    var user: Option<UserData>
    var loading: bool
    /** The current location; `navigate` and `<Navigate>` replace it. */
    var location: string

    /** The shell's current render. */
    function View(): Screen
      reads this
    {
      Render(loading, location, user)
    }

    /** Mount: no user and loading, so only the loading screen renders. */
    constructor (location: string)
      ensures user == None && loading && this.location == location
      ensures View() == LoadingScreen
    {
      user := None;
      loading := true;
      this.location := location;
    }

    /** The auth listener: records the signed-in user's email and uid, or none, and ends loading. */
    method OnAuthStateChanged(firebaseUser: Option<UserData>)
      modifies this
      ensures !loading
      ensures firebaseUser.Some? ==> user == Some(UserData(firebaseUser.value.email, firebaseUser.value.uid))
      ensures firebaseUser.None? ==> user == None
      ensures location == old(location)
      ensures View() == Route(location, user)
    {
      if firebaseUser.Some? {
        user := Some(UserData(firebaseUser.value.email, firebaseUser.value.uid));
      } else {
        user := None;
      }
      loading := false;
    }

    /** `handleLogin`: the given user data becomes the session; the loading flag is untouched. */
    method HandleLogin(userData: UserData)
      modifies this
      ensures user == Some(userData)
      ensures loading == old(loading) && location == old(location)
    {
      user := Some(userData);
    }

    /** `handleLogout`: the session is cleared; the loading flag is untouched. */
    method HandleLogout()
      modifies this
      ensures user == None
      ensures loading == old(loading) && location == old(location)
    {
      user := None;
    }

    /** A navigation to `to`. */
    method Navigate(to: string)
      modifies this
      ensures location == to
      ensures user == old(user) && loading == old(loading)
    {
      location := to;
    }

    /**
     * The login page wired to the shell (`onLogin={handleLogin}`): a successful submit sets the
     * session and moves to `/dashboard`, which then renders the dashboard for that user.
     */
    method SubmitLogin(page: Login.LoginPage, result: Login.SignInResult)
      requires !loading
      modifies this, page
      ensures !loading
      ensures Login.ValidateLogin(page.email, page.password).None? && result.SignedIn? ==>
        && user == Some(result.user) && location == DASHBOARD_PATH
        && View() == DashboardPage(result.user)
      ensures Login.ValidateLogin(page.email, page.password).Some? || result.SignInFailed? ==>
        user == old(user) && location == old(location)
      ensures page.email == old(page.email) && page.password == old(page.password)
      ensures Login.ValidateLogin(page.email, page.password).Some? ==>
        && page.error == Login.ValidateLogin(page.email, page.password).value
        && page.signInCalls == old(page.signInCalls) && page.reported == old(page.reported)
      ensures Login.ValidateLogin(page.email, page.password).None? ==>
        page.signInCalls == old(page.signInCalls) + [(page.email, page.password)]
      ensures Login.ValidateLogin(page.email, page.password).None? && result.SignedIn? ==>
        page.error == [] && page.reported == old(page.reported) + [result.user]
      ensures Login.ValidateLogin(page.email, page.password).None? && result.SignInFailed? ==>
        page.error == MessageOr(result.message, Login.LOGIN_FAILED) && page.reported == old(page.reported)
    {
      var before := |page.reported|;
      page.HandleSubmit(result);
      if |page.reported| > before {
        HandleLogin(page.reported[before]);
        Navigate(page.navigations[|page.navigations| - 1]);
      }
    }

    /**
     * The dashboard's logout button (`onLogout={handleLogout}`): whether or not the sign-out call
     * fails, the session is cleared and the shell moves to `/login`, which shows the login form.
     */
    method DashboardLogout(signOutFails: bool)
      requires !loading
      modifies this
      ensures !loading
      ensures user == None && location == LOGIN_PATH
      ensures View() == LoginForm
    {
      HandleLogout();
      Navigate(LOGIN_PATH);
    }
  }
}

=== FILE: create_issue_form.dfy ===
/**
 * The create form: its defaults, the advisory similar-title warning and the submit,
 * create-anyway and cancel handlers over `formData`, `showSimilarWarning` and `error`.
 */
module CreateIssueForm {
  import opened Wrappers
  import opened Text
  import opened Issues

  const TITLE_REQUIRED := "Title is required"
  const DESCRIPTION_REQUIRED := "Description is required"
  const CREATE_FAILED_DEFAULT := "Failed to create issue"

  /** The form's initial state, restored after every successful create. */
  function EmptyForm(): (f: IssueFields)
    ensures f.title == "" && f.description == "" && f.assignedTo == ""
    ensures f.priority == MEDIUM && f.status == OPEN
  {
    IssueFields("", "", MEDIUM, OPEN, "")
  }

  /** Case-insensitive containment in either direction between two titles. */
  predicate TitlesOverlap(existing: string, typed: string) {
    Contains(Lower(existing), Lower(typed)) || Contains(Lower(typed), Lower(existing))
  }

  /** `existingIssues.some(issue => ...)`: some loaded issue's title overlaps the typed title. */
  function SimilarExists(typed: string, existing: seq<Issue>): (b: bool)
    ensures b <==> exists k :: 0 <= k < |existing| && TitlesOverlap(existing[k].title, typed)
  {
    if existing == [] then false
    else TitlesOverlap(existing[0].title, typed) || SimilarExists(typed, existing[1..])
  }

  /** What `handleTitleChange` sets `showSimilarWarning` to. */
  function WarningFor(typed: string, existing: seq<Issue>): bool {
    !IsBlank(typed) && SimilarExists(typed, existing)
  }

  /** Overlap does not depend on which title is the candidate. */
  lemma OverlapSymmetric(a: string, b: string)
    ensures TitlesOverlap(a, b) <==> TitlesOverlap(b, a)
  {
  }

  /** Overlap ignores letter case in the typed title. */
  lemma OverlapIgnoresCase(existing: string, typed: string)
    ensures TitlesOverlap(existing, Lower(typed)) <==> TitlesOverlap(existing, typed)
  {
    LowerIdempotent(typed);
  }

  /** The warning ignores letter case in the typed title. */
  lemma WarningIgnoresCase(typed: string, existing: seq<Issue>)
    ensures WarningFor(Lower(typed), existing) == WarningFor(typed, existing)
  {
    LowerKeepsBlank(typed);
    forall k | 0 <= k < |existing|
      ensures TitlesOverlap(existing[k].title, Lower(typed)) <==> TitlesOverlap(existing[k].title, typed)
    {
      OverlapIgnoresCase(existing[k].title, typed);
    }
  }

  /** A title that trims to nothing never warns, whatever is loaded. */
  lemma BlankTitleNeverWarns(typed: string, existing: seq<Issue>)
    requires Trim(typed) == []
    ensures !WarningFor(typed, existing)
  {
    TrimEmptyIffBlank(typed);
  }

  /** A loaded issue with an empty title makes every non-blank title warn. */
  lemma EmptyExistingTitleMatchesAll(typed: string, existing: seq<Issue>, k: nat)
    requires k < |existing| && existing[k].title == ""
    requires !IsBlank(typed)
    ensures WarningFor(typed, existing)
  {
    ContainsEmpty(Lower(typed));
    assert TitlesOverlap(existing[k].title, typed);
  }

  /** A title equal to a loaded one up to case warns. */
  lemma SameTitleWarns(typed: string, existing: seq<Issue>, k: nat)
    requires k < |existing| && Lower(existing[k].title) == Lower(typed)
    requires !IsBlank(typed)
    ensures WarningFor(typed, existing)
  {
    ContainsSelf(Lower(typed));
    assert TitlesOverlap(existing[k].title, typed);
  }

  /**
   * The two containment tests hold together exactly when the titles are equal up to case: a
   * warning for a different title comes from one direction only.
   */
  lemma OverlapBothWaysIffSameTitle(existing: string, typed: string)
    ensures Contains(Lower(existing), Lower(typed)) && Contains(Lower(typed), Lower(existing))
        <==> Lower(existing) == Lower(typed)
  {
    if Contains(Lower(existing), Lower(typed)) && Contains(Lower(typed), Lower(existing)) {
      MutualContainment(Lower(existing), Lower(typed));
    }
    if Lower(existing) == Lower(typed) {
      ContainsSelf(Lower(typed));
    }
  }

  /**
   * "Login bug" typed while "Cannot login" is loaded does not warn: neither lower-cased title
   * contains the other, since the check is plain substring containment.
   */
  lemma NoWarningWithoutContainment()
    ensures !SimilarExists("Login bug", [Issue("1", "Cannot login", "", MEDIUM, OPEN, "", None, None)])
  {
    var existing := [Issue("1", "Cannot login", "", MEDIUM, OPEN, "", None, None)];
    assert existing[0].title == "Cannot login";
    assert !TitlesOverlap("Cannot login", "Login bug") by {
      LowerLoginBug();
      LowerCannotLogin();
      CannotLoginLacksLoginBug();
      if Contains("login bug", "cannot login") {
        ContainsShorter("login bug", "cannot login");
      }
    }
  }

  lemma LowerLoginBug()
    ensures Lower("Login bug") == "login bug"
  {
  }

  lemma LowerCannotLogin()
    ensures Lower("Cannot login") == "cannot login"
  {
  }

  /** "cannot login" has no `b`, so it cannot include "login bug". */
  lemma CannotLoginLacksLoginBug()
    ensures !Contains("cannot login", "login bug")
  {
    assert "login bug"[6] == 'b';
    MissingCharExcludes("cannot login", "login bug", 'b');
  }

  /** The submit checks: title first, then description; `None` means both are present. */
  function SubmitError(f: IssueFields): (e: Option<string>)
    ensures e == Some(TITLE_REQUIRED) <==> IsBlank(f.title)
    ensures e == Some(DESCRIPTION_REQUIRED) <==> !IsBlank(f.title) && IsBlank(f.description)
    ensures e.None? <==> !IsBlank(f.title) && !IsBlank(f.description)
  {
    if IsBlank(f.title) then Some(TITLE_REQUIRED)
    else if IsBlank(f.description) then Some(DESCRIPTION_REQUIRED)
    else None
  }

  /** The inputs other than the title, which `handleTitleChange` owns. */
  datatype FormField = DescriptionInput | PriorityInput | StatusInput | AssignedToInput

  class FormState {
    var formData: IssueFields
    var showSimilarWarning: bool
    var error: string
    /** Every `formData` handed to `onCreateIssue`, oldest first. */
    var submitted: seq<IssueFields>

    constructor ()
      ensures formData == EmptyForm() && !showSimilarWarning && error == "" && submitted == []
    {
      formData := EmptyForm();
      showSimilarWarning := false;
      error := "";
      submitted := [];
    }

    /** The description, priority, status and assignee inputs: `setFormData({...formData, field: value})`. */
    method ChangeField(field: FormField, value: string)
      modifies this
      ensures formData.title == old(formData.title)
      ensures formData == match field
        case DescriptionInput => old(formData).(description := value)
        case PriorityInput => old(formData).(priority := value)
        case StatusInput => old(formData).(status := value)
        case AssignedToInput => old(formData).(assignedTo := value)
      ensures showSimilarWarning == old(showSimilarWarning) && error == old(error) && submitted == old(submitted)
    {
      match field
      case DescriptionInput => formData := formData.(description := value);
      case PriorityInput => formData := formData.(priority := value);
      case StatusInput => formData := formData.(status := value);
      case AssignedToInput => formData := formData.(assignedTo := value);
    }

    /** `handleTitleChange` with the loaded issues of the moment. */
    method HandleTitleChange(title: string, existing: seq<Issue>)
      modifies this
      ensures formData == old(formData).(title := title)
      ensures showSimilarWarning == WarningFor(title, existing)
      ensures error == old(error) && submitted == old(submitted)
    {
      formData := formData.(title := title);
      if !IsBlank(title) {
        showSimilarWarning := SimilarExists(title, existing);
      } else {
        showSimilarWarning := false;
      }
    }

    /**
     * `handleSubmit`. `createResult` is how the `onCreateIssue` promise settles, used only
     * when the form calls it. A rejection keeps `formData` for a retry.
     */
    method HandleSubmit(createResult: Outcome)
      modifies this
      ensures SubmitError(old(formData)).Some? ==>
        && error == SubmitError(old(formData)).value
        && submitted == old(submitted) && formData == old(formData)
        && showSimilarWarning == old(showSimilarWarning)
      ensures SubmitError(old(formData)).None? ==> submitted == old(submitted) + [old(formData)]
      ensures SubmitError(old(formData)).None? && createResult.Ok? ==>
        formData == EmptyForm() && !showSimilarWarning && error == ""
      ensures SubmitError(old(formData)).None? && createResult.Failed? ==>
        && formData == old(formData) && showSimilarWarning == old(showSimilarWarning)
        && error == MessageOr(createResult.message, CREATE_FAILED_DEFAULT)
    {
      error := "";
      var invalid := SubmitError(formData);
      if invalid.Some? {
        error := invalid.value;
        return;
      }
      submitted := submitted + [formData];
      match createResult
      case Ok =>
        formData := EmptyForm();
        showSimilarWarning := false;
        error := "";
      case Failed(message) =>
        error := MessageOr(message, CREATE_FAILED_DEFAULT);
    }

    /**
     * `handleCreateAnyway`: always hides the warning; with a blank title or description it
     * does nothing else, not even set an error.
     */
    method HandleCreateAnyway(createResult: Outcome)
      modifies this
      ensures !showSimilarWarning
      ensures SubmitError(old(formData)).Some? ==>
        formData == old(formData) && error == old(error) && submitted == old(submitted)
      ensures SubmitError(old(formData)).None? ==> submitted == old(submitted) + [old(formData)]
      ensures SubmitError(old(formData)).None? && createResult.Ok? ==> formData == EmptyForm() && error == ""
      ensures SubmitError(old(formData)).None? && createResult.Failed? ==>
        formData == old(formData) && error == MessageOr(createResult.message, CREATE_FAILED_DEFAULT)
    {
      showSimilarWarning := false;
      if SubmitError(formData).None? {
        submitted := submitted + [formData];
        match createResult
        case Ok =>
          formData := EmptyForm();
          error := "";
        case Failed(message) =>
          error := MessageOr(message, CREATE_FAILED_DEFAULT);
      }
    }

    /** `handleCancel` of the warning: hides it and clears only the title. */
    method HandleCancel()
      modifies this
      ensures !showSimilarWarning
      ensures formData == old(formData).(title := "")
      ensures error == old(error) && submitted == old(submitted)
    {
      showSimilarWarning := false;
      formData := formData.(title := "");
    }
  }
}

=== FILE: dashboard.dfy ===
/**
 * The dashboard page: the loaded `issues`, the status and priority filters, the blocking
 * duplicate-title check before a create, and the create, update and delete handlers,
 * re-fetching from the store after a successful write.
 */
module Dashboard {
  import opened Wrappers
  import opened Text
  import opened Issues
  import opened IssueService
  import IssueList
  import CreateIssueForm

  const ALL := "All"

  /** One filter value: `All` matches everything, any other value must equal the field. */
  predicate FilterMatches(filter: string, value: string) {
    filter == ALL || value == filter
  }

  /** The `filteredIssues` predicate: both filters must match. */
  predicate InView(i: Issue, statusFilter: string, priorityFilter: string) {
    FilterMatches(statusFilter, i.status) && FilterMatches(priorityFilter, i.priority)
  }

  /** `issues.filter(...)`. */
  function FilterIssues(s: seq<Issue>, statusFilter: string, priorityFilter: string): (r: seq<Issue>)
    ensures |r| <= |s|
  {
    if s == [] then []
    else if InView(s[0], statusFilter, priorityFilter) then [s[0]] + FilterIssues(s[1..], statusFilter, priorityFilter)
    else FilterIssues(s[1..], statusFilter, priorityFilter)
  }

  /** An issue is in the view exactly when it is in the list and both filters match it. */
  lemma {:induction false} FilterMembership(s: seq<Issue>, sf: string, pf: string, x: Issue)
    ensures x in FilterIssues(s, sf, pf) <==> x in s && InView(x, sf, pf)
  {
    if s != [] {
      FilterMembership(s[1..], sf, pf, x);
      assert x in s <==> x == s[0] || x in s[1..];
    }
  }

  /** Filtering keeps order: filtering a concatenation concatenates the filtered parts. */
  lemma {:induction false} FilterConcat(a: seq<Issue>, b: seq<Issue>, sf: string, pf: string)
    ensures FilterIssues(a + b, sf, pf) == FilterIssues(a, sf, pf) + FilterIssues(b, sf, pf)
  {
    if a != [] {
      var ab := a + b;
      assert ab[0] == a[0] && ab[1..] == a[1..] + b;
      FilterConcat(a[1..], b, sf, pf);
      FilterStep(ab, sf, pf);
      FilterStep(a, sf, pf);
    } else {
      assert a + b == b;
    }
  }

  /** One unfolding of `FilterIssues` on a non-empty list. */
  lemma FilterStep(s: seq<Issue>, sf: string, pf: string)
    requires s != []
    ensures FilterIssues(s, sf, pf)
         == (if InView(s[0], sf, pf) then [s[0]] else []) + FilterIssues(s[1..], sf, pf)
  {
    if !InView(s[0], sf, pf) {
      assert [] + FilterIssues(s[1..], sf, pf) == FilterIssues(s[1..], sf, pf);
    }
  }

  /** With both filters at `All` the view is the whole list, in order. */
  lemma {:induction false} FilterAllIsIdentity(s: seq<Issue>)
    ensures FilterIssues(s, ALL, ALL) == s
  {
    if s != [] {
      FilterAllIsIdentity(s[1..]);
    }
  }

  /** The two filters compose as an AND: status first, then priority, gives the same view. */
  lemma {:induction false} FilterIsConjunction(s: seq<Issue>, sf: string, pf: string)
    ensures FilterIssues(s, sf, pf) == FilterIssues(FilterIssues(s, sf, ALL), ALL, pf)
  {
    if s != [] {
      FilterIsConjunction(s[1..], sf, pf);
    }
  }

  /** A newest-first list stays newest first when filtered. */
  lemma {:induction false} FilterKeepsNewestFirst(s: seq<Issue>, sf: string, pf: string)
    requires IssueList.NewestFirst(s)
    ensures IssueList.NewestFirst(FilterIssues(s, sf, pf))
  {
    if s != [] {
      FilterKeepsNewestFirst(s[1..], sf, pf);
      var rest := FilterIssues(s[1..], sf, pf);
      if InView(s[0], sf, pf) {
        var r := [s[0]] + rest;
        forall i, j | 0 <= i < j < |r| ensures CreatedKey(r[i]) >= CreatedKey(r[j]) {
          if i == 0 {
            assert r[j] in rest;
            FilterMembership(s[1..], sf, pf, r[j]);
          } else {
            assert r[i] == rest[i - 1] && r[j] == rest[j - 1];
          }
        }
      }
    }
  }

  /** The issues of one timestamp, filtered, are the filtered issues of that timestamp. */
  lemma {:induction false} FilterCommutesWithTime(s: seq<Issue>, sf: string, pf: string, t: int)
    ensures IssueList.WithTime(FilterIssues(s, sf, pf), t) == FilterIssues(IssueList.WithTime(s, t), sf, pf)
  {
    if s != [] {
      FilterCommutesWithTime(s[1..], sf, pf, t);
    }
  }

  /** Filtering and the table's sort commute: the table of the view is the view of the table. */
  lemma SortOfFilter(s: seq<Issue>, sf: string, pf: string)
    ensures IssueList.SortNewestFirst(FilterIssues(s, sf, pf))
         == FilterIssues(IssueList.SortNewestFirst(s), sf, pf)
  {
    var sorted := IssueList.SortNewestFirst(s);
    FilterKeepsNewestFirst(sorted, sf, pf);
    forall t ensures IssueList.WithTime(IssueList.SortNewestFirst(FilterIssues(s, sf, pf)), t)
                  == IssueList.WithTime(FilterIssues(sorted, sf, pf), t)
    {
      FilterCommutesWithTime(s, sf, pf, t);
      FilterCommutesWithTime(sorted, sf, pf, t);
    }
    IssueList.SortedIsUnique(IssueList.SortNewestFirst(FilterIssues(s, sf, pf)), FilterIssues(sorted, sf, pf));
  }

  /** A loaded issue blocks a create when its lower-cased title contains the new lower-cased title. */
  predicate Duplicates(existingTitle: string, newTitle: string) {
    Contains(Lower(existingTitle), Lower(newTitle))
  }

  /** `issues.find(...)`: the first loaded issue whose title contains the new title. */
  function FindSimilar(issues: seq<Issue>, title: string): (r: Option<Issue>)
    ensures r.Some? <==> exists k :: 0 <= k < |issues| && Duplicates(issues[k].title, title)
    ensures r.Some? ==> r.value in issues && Duplicates(r.value.title, title)
  {
    if issues == [] then None
    else if Duplicates(issues[0].title, title) then Some(issues[0])
    else FindSimilar(issues[1..], title)
  }

  /** The issue found is the first match: every issue before it fails the test. */
  lemma {:induction false} FindSimilarIsFirst(issues: seq<Issue>, title: string)
    requires FindSimilar(issues, title).Some?
    ensures exists k :: 0 <= k < |issues| && issues[k] == FindSimilar(issues, title).value &&
                        forall m :: 0 <= m < k ==> !Duplicates(issues[m].title, title)
  {
    if !Duplicates(issues[0].title, title) {
      FindSimilarIsFirst(issues[1..], title);
      var k :| 0 <= k < |issues[1..]| && issues[1..][k] == FindSimilar(issues, title).value
        && forall m :: 0 <= m < k ==> !Duplicates(issues[1..][m].title, title);
      assert issues[k + 1] == FindSimilar(issues, title).value;
      forall m | 0 <= m < k + 1 ensures !Duplicates(issues[m].title, title) {
        if m > 0 { assert issues[m] == issues[1..][m - 1]; }
      }
    } else {
      assert issues[0] == FindSimilar(issues, title).value;
    }
  }

  /** Every create the dashboard blocks was also flagged by the form's advisory warning. */
  lemma BlockImpliesWarning(issues: seq<Issue>, title: string)
    requires FindSimilar(issues, title).Some?
    ensures CreateIssueForm.SimilarExists(title, issues)
  {
    var k :| 0 <= k < |issues| && Duplicates(issues[k].title, title);
    assert CreateIssueForm.TitlesOverlap(issues[k].title, title);
  }

  /**
   * The converse fails: with "Login" loaded, typing "Login bug" warns in the form, but the
   * dashboard lets the create through, because it only tests one direction.
   */
  lemma WarningWithoutBlock()
    ensures var loaded := [Issue("1", "Login", "", MEDIUM, OPEN, "", None, None)];
      CreateIssueForm.SimilarExists("Login bug", loaded) && FindSimilar(loaded, "Login bug").None?
  {
    var loaded := [Issue("1", "Login", "", MEDIUM, OPEN, "", None, None)];
    assert loaded[0].title == "Login";
    assert Lower("Login bug") == "login bug";
    assert Lower("Login") == "login";
    assert "login bug"[..5] == "login";
    assert Contains("login bug", "login");
    if Contains("login", "login bug") {
      ContainsShorter("login", "login bug");
    }
    assert CreateIssueForm.TitlesOverlap(loaded[0].title, "Login bug");
  }

  /** Unlike the form's warning, the block has no blank-title guard: an empty title matches any loaded issue. */
  lemma EmptyTitleMatchesAnyLoaded(issues: seq<Issue>)
    requires issues != []
    ensures FindSimilar(issues, "").Some?
  {
    assert Lower("") == "";
    ContainsEmpty(Lower(issues[0].title));
  }

  /** `if (updateData.status)`: a present, non-empty status. */
  predicate HasTruthyStatus(update: IssuePatch) {
    update.status.Some? && update.status.value != ""
  }

  /** What `handleUpdateIssue` writes: only `{status}` when the update has a status, else the update itself. */
  function Dispatched(update: IssuePatch): (w: IssuePatch)
    ensures HasTruthyStatus(update) ==> w == StatusOnly(update.status.value)
    ensures !HasTruthyStatus(update) ==> w == update
  {
    if HasTruthyStatus(update) then StatusOnly(update.status.value) else update
  }

  /**
   * A saved edit row sends its whole `editData`, whose status is set, so the store receives only
   * the status: edits to title, description, priority and assignee never reach the document.
   */
  lemma SaveWritesOnlyStatus(d: IssueDoc, edit: IssueFields)
    requires edit.status != ""
    ensures ApplyPatch(d, Dispatched(FullPatch(edit))) == d.(status := edit.status)
  {
    StatusUpdateTouchesOnlyStatus(d, edit.status);
  }

  /** Only an update without a status writes its fields as given. */
  lemma StatuslessUpdateWritesPatch(d: IssueDoc, update: IssuePatch)
    requires update.status.None?
    ensures ApplyPatch(d, Dispatched(update)) == ApplyPatch(d, update)
  {
  }

  /** The store's listing, sorted by the table, comes back in the same order, and so does any view of it. */
  lemma TableKeepsFetchOrder(docs: map<string, IssueDoc>, order: seq<string>, sf: string, pf: string)
    requires forall id :: id in order ==> id in docs
    requires Increasing(docs, order)
    ensures var view := FilterIssues(Listing(docs, order), sf, pf);
      IssueList.SortNewestFirst(view) == view
  {
    var r := Listing(docs, order);
    ListingNewestFirst(docs, order);
    FilterKeepsNewestFirst(r, sf, pf);
    IssueList.SortKeepsSorted(FilterIssues(r, sf, pf));
  }

  class DashboardPage {
    /** The store client the handlers call. */
    const store: IssueStore
    var issues: seq<Issue>
    var statusFilter: string
    var priorityFilter: string

    ghost predicate Valid()
      reads this, store
    {
      store.Valid()
    }

    /** The issues handed to the list: the loaded issues that pass both filters. */
    function View(): seq<Issue>
      reads this
    {
      FilterIssues(issues, statusFilter, priorityFilter)
    }

    /** What a completed re-fetch yields: the store's listing, or nothing when the read failed. */
    ghost function Refetched(fetchFails: bool): seq<Issue>
      reads this, store
      requires Valid()
    {
      if fetchFails then [] else Listing(store.docs, store.order)
    }

    /** First render: no issues, both filters `All`, so the view is the whole (empty) list. */
    constructor (store: IssueStore)
      requires store.Valid()
      ensures this.store == store && Valid()
      ensures issues == [] && statusFilter == ALL && priorityFilter == ALL
      ensures View() == issues
    {
      this.store := store;
      issues := [];
      statusFilter := ALL;
      priorityFilter := ALL;
    }

    /** The mount effect `loadIssues`: the fetched issues, or `[]` when the read failed. */
    method LoadIssues(fetchFails: bool)
      requires Valid()
      modifies this
      ensures Valid()
      ensures issues == Refetched(fetchFails)
      ensures statusFilter == old(statusFilter) && priorityFilter == old(priorityFilter)
    {
      issues := store.FetchIssues(fetchFails);
    }

    /** The status select. */
    method SetStatusFilter(value: string)
      modifies this
      ensures statusFilter == value
      ensures issues == old(issues) && priorityFilter == old(priorityFilter)
    {
      statusFilter := value;
    }

    /** The priority select. */
    method SetPriorityFilter(value: string)
      modifies this
      ensures priorityFilter == value
      ensures issues == old(issues) && statusFilter == old(statusFilter)
    {
      priorityFilter := value;
    }

    /**
     * `handleCreateIssue`. A loaded issue whose title contains the new title blocks the create:
     * no store call, no re-fetch. Otherwise the store creates the issue and `issues` is replaced
     * by a re-fetch. Every error is caught, so the returned promise always resolves (`Ok`).
     */
    method HandleCreateIssue(data: IssueFields, currentEmail: Option<string>, newId: string, now: int,
                             createFails: bool, fetchFails: bool) returns (settled: Outcome)
      requires Valid()
      requires newId !in store.docs
      requires forall id :: id in store.docs ==> store.docs[id].createdAt < now
      modifies this, store
      ensures Valid()
      ensures settled == Ok
      ensures statusFilter == old(statusFilter) && priorityFilter == old(priorityFilter)
      ensures FindSimilar(old(issues), data.title).Some? || createFails ==>
        issues == old(issues) && store.docs == old(store.docs) && store.order == old(store.order)
      ensures FindSimilar(old(issues), data.title).None? && !createFails ==>
        && store.docs == old(store.docs)[newId := NewDoc(data, currentEmail, now)]
        && issues == Refetched(fetchFails)
    {
      var similar := FindSimilar(issues, data.title);
      if similar.Some? {
        return Ok;
      }
      var created := store.CreateIssue(data, currentEmail, newId, now, createFails);
      if created.Failed? {
        return Ok;
      }
      issues := store.FetchIssues(fetchFails);
      settled := Ok;
    }

    /**
     * The create form wired to the page (`onCreateIssue={handleCreateIssue}`). The handler's
     * promise always resolves, so a submit that passes the form's checks clears the form and
     * shows no error, even when the create was blocked as a duplicate or the store write failed.
     */
    method SubmitCreateForm(form: CreateIssueForm.FormState, currentEmail: Option<string>, newId: string, now: int,
                            createFails: bool, fetchFails: bool)
      requires Valid()
      requires newId !in store.docs
      requires forall id :: id in store.docs ==> store.docs[id].createdAt < now
      modifies this, store, form
      ensures Valid()
      ensures statusFilter == old(statusFilter) && priorityFilter == old(priorityFilter)
      ensures CreateIssueForm.SubmitError(old(form.formData)).Some? ==>
        && form.error == CreateIssueForm.SubmitError(old(form.formData)).value
        && form.formData == old(form.formData)
        && form.submitted == old(form.submitted) && form.showSimilarWarning == old(form.showSimilarWarning)
        && store.docs == old(store.docs) && issues == old(issues)
      ensures CreateIssueForm.SubmitError(old(form.formData)).None? ==>
        && form.formData == CreateIssueForm.EmptyForm() && form.error == "" && !form.showSimilarWarning
        && form.submitted == old(form.submitted) + [old(form.formData)]
      ensures FindSimilar(old(issues), old(form.formData).title).Some? || createFails ==>
        store.docs == old(store.docs) && issues == old(issues)
      ensures (CreateIssueForm.SubmitError(old(form.formData)).None?
               && FindSimilar(old(issues), old(form.formData).title).None? && !createFails) ==>
        && store.docs == old(store.docs)[newId := NewDoc(old(form.formData), currentEmail, now)]
        && issues == Refetched(fetchFails)
    {
      var data := form.formData;
      var settled := Ok;
      if CreateIssueForm.SubmitError(data).None? {
        settled := HandleCreateIssue(data, currentEmail, newId, now, createFails, fetchFails);
      }
      form.HandleSubmit(settled);
    }

    /**
     * `handleUpdateIssue`: the store receives `Dispatched(update)`; after a successful write
     * `issues` is re-fetched, after a failed one nothing changes.
     */
    method HandleUpdateIssue(issueId: string, update: IssuePatch, writeFails: bool, fetchFails: bool)
      requires Valid()
      modifies this, store
      ensures Valid() && store.order == old(store.order)
      ensures statusFilter == old(statusFilter) && priorityFilter == old(priorityFilter)
      ensures writeFails || issueId !in old(store.docs) ==>
        store.docs == old(store.docs) && issues == old(issues)
      ensures !writeFails && issueId in old(store.docs) ==>
        && store.docs == old(store.docs)[issueId := ApplyPatch(old(store.docs)[issueId], Dispatched(update))]
        && issues == Refetched(fetchFails)
    {
      var written: Outcome;
      if HasTruthyStatus(update) {
        written := store.UpdateIssueStatus(issueId, update.status.value, writeFails);
        if written.Ok? {
          StatusUpdateTouchesOnlyStatus(old(store.docs)[issueId], update.status.value);
        }
      } else {
        written := store.UpdateIssue(issueId, update, writeFails);
      }
      if written.Failed? {
        return;
      }
      issues := store.FetchIssues(fetchFails);
    }

    /** `handleDeleteIssue`: only a confirmed delete reaches the store; a successful one re-fetches. */
    method HandleDeleteIssue(issueId: string, confirmed: bool, deleteFails: bool, fetchFails: bool)
      requires Valid()
      modifies this, store
      ensures Valid()
      ensures statusFilter == old(statusFilter) && priorityFilter == old(priorityFilter)
      ensures !confirmed || deleteFails ==>
        store.docs == old(store.docs) && store.order == old(store.order) && issues == old(issues)
      ensures confirmed && !deleteFails ==>
        && store.docs == old(store.docs) - {issueId}
        && issueId !in store.docs
        && issues == Refetched(fetchFails)
    {
      if !confirmed {
        return;
      }
      var deleted := store.DeleteIssue(issueId, deleteFails);
      if deleted.Failed? {
        return;
      }
      issues := store.FetchIssues(fetchFails);
    }
  }
}

=== FILE: issue_item.dfy ===
/**
 * One row of the issue table: its badge classes and the edit-mode state machine over
 * `editData`, `isEditing` and `statusError`, with the Open-to-Done rule.
 */
module IssueItem {
  import opened Text
  import opened Issues

  const STATUS_ERROR := "Please move the issue to In Progress before marking it Done."

  /** The one forbidden move: from a stored Open straight to Done. Same-to-same is allowed. */
  predicate TransitionAllowed(current: string, requested: string) {
    !(current == OPEN && requested == DONE)
  }

  /** Done is reachable from every status in at most two allowed moves, through In Progress. */
  lemma DoneReachableThroughInProgress(current: string)
    ensures TransitionAllowed(current, IN_PROGRESS) && TransitionAllowed(IN_PROGRESS, DONE)
    ensures current != OPEN <==> TransitionAllowed(current, DONE)
  {
  }

  /** `priority-badge priority-<value lower-cased, first space replaced by a dash>`. */
  function PriorityClass(priority: string): (c: string)
    ensures |c| == |"priority-badge priority-"| + |priority|
    ensures c[..|"priority-badge priority-"|] == "priority-badge priority-"
    ensures forall k :: 0 <= k < |priority| ==>
      c[|"priority-badge priority-"| + k] == if k == IndexOf(Lower(priority), ' ') then '-' else LowerChar(priority[k])
  {
    ReplaceFirstEach(Lower(priority), ' ', '-');
    "priority-badge priority-" + ReplaceFirst(Lower(priority), ' ', '-')
  }

  /** `status-badge status-<value lower-cased, first space replaced by a dash>`. */
  function StatusClass(status: string): (c: string)
    ensures |c| == |"status-badge status-"| + |status|
    ensures c[..|"status-badge status-"|] == "status-badge status-"
    ensures forall k :: 0 <= k < |status| ==>
      c[|"status-badge status-"| + k] == if k == IndexOf(Lower(status), ' ') then '-' else LowerChar(status[k])
  {
    ReplaceFirstEach(Lower(status), ' ', '-');
    "status-badge status-" + ReplaceFirst(Lower(status), ' ', '-')
  }

  /** The badge of the status In Progress is `status-badge status-in-progress`. */
  lemma InProgressBadge()
    ensures StatusClass(IN_PROGRESS) == "status-badge status-in-progress"
  {
    LowerInProgress();
    DashInProgress();
  }

  lemma LowerInProgress()
    ensures Lower(IN_PROGRESS) == "in progress"
  {
  }

  lemma DashInProgress()
    ensures ReplaceFirst("in progress", ' ', '-') == "in-progress"
  {
    assert "in progress"[..2] == "in";
    ReplaceFirstAt("in progress", ' ', '-', 2);
  }

  /** A value without spaces is only lower-cased: `Done` gives `status-badge status-done`. */
  lemma DoneBadge()
    ensures StatusClass(DONE) == "status-badge status-done"
  {
    assert Lower(DONE) == "done";
    ReplaceFirstNoMatch("done", ' ', '-');
  }

  lemma HighPriorityBadge()
    ensures PriorityClass(HIGH) == "priority-badge priority-high"
  {
    assert Lower(HIGH) == "high";
    ReplaceFirstNoMatch("high", ' ', '-');
  }

  /** Only the first space becomes a dash: a value with two spaces keeps its second one. */
  lemma OnlyFirstSpaceReplaced()
    ensures StatusClass("A B C") == "status-badge status-a-b c"
  {
    assert Lower("A B C") == "a b c";
    ReplaceFirstAt("a b c", ' ', '-', 1);
  }

  /** A value with at most one space gives a class suffix with no space: a single CSS class token. */
  lemma BadgeSuffixIsOneToken(v: string, k: nat)
    requires k < |v| && v[k] == ' ' && ' ' !in v[..k] && ' ' !in v[k + 1..]
    ensures ' ' !in ReplaceFirst(Lower(v), ' ', '-')
  {
    var w := Lower(v);
    assert w[k] == ' ';
    assert ' ' !in w[..k] by {
      forall m | 0 <= m < k ensures w[..k][m] != ' ' {
        assert v[..k][m] == v[m];
      }
    }
    ReplaceFirstAt(w, ' ', '-', k);
    assert ' ' !in w[k + 1..] by {
      forall m | k + 1 <= m < |w| ensures w[m] != ' ' {
        assert v[k + 1..][m - k - 1] == v[m];
      }
    }
  }

  /** A call of one of the row's callbacks: `onUpdateIssue(issue.id, update)` or `onDeleteIssue(issue.id)`. */
  datatype RowCall = UpdateCall(id: string, update: IssuePatch) | DeleteCall(id: string)

  /** The fields an edit form input changes directly; the status select goes through `HandleStatusChange`. */
  datatype EditableField = TitleField | DescriptionField | PriorityField | AssignedToField

  class IssueRow {
    /** The `issue` prop: the stored issue as of the parent's last render. */
    var issue: Issue
    var editData: IssueFields
    var isEditing: bool
    var statusError: string
    /** Every update and delete the row has asked for, oldest first. */
    var sent: seq<RowCall>

    /**
     * Without a re-render that changes `issue`, an Open issue never has Done pending in
     * `editData`: the row's own handlers only store statuses the rule allows.
     */
    ghost predicate NoIllegalPending()
      reads this
    {
      issue.status == OPEN ==> editData.status != DONE
    }

    /** The row's first render: `editData` copies the issue, edit mode is off, no error. */
    constructor (issue: Issue)
      ensures this.issue == issue && editData == FieldsOf(issue)
      ensures !isEditing && statusError == "" && sent == []
      ensures NoIllegalPending()
    {
      this.issue := issue;
      editData := FieldsOf(issue);
      isEditing := false;
      statusError := "";
      sent := [];
    }

    /** The parent renders the row with a fresher `issue`; `editData` keeps its state. */
    method Rerender(latest: Issue)
      modifies this
      ensures issue == latest
      ensures editData == old(editData) && isEditing == old(isEditing)
      ensures statusError == old(statusError) && sent == old(sent)
    {
      issue := latest;
    }

    /** The Edit button. */
    method StartEdit()
      modifies this
      ensures isEditing
      ensures issue == old(issue) && editData == old(editData)
      ensures statusError == old(statusError) && sent == old(sent)
      ensures old(NoIllegalPending()) ==> NoIllegalPending()
    {
      isEditing := true;
    }

    /** The title, description, priority and assignee inputs: `setEditData({...editData, field: value})`. */
    method ChangeField(field: EditableField, value: string)
      modifies this
      ensures editData.status == old(editData.status)
      ensures editData == match field
        case TitleField => old(editData).(title := value)
        case DescriptionField => old(editData).(description := value)
        case PriorityField => old(editData).(priority := value)
        case AssignedToField => old(editData).(assignedTo := value)
      ensures issue == old(issue) && isEditing == old(isEditing)
      ensures statusError == old(statusError) && sent == old(sent)
      ensures old(NoIllegalPending()) ==> NoIllegalPending()
    {
      match field
      case TitleField => editData := editData.(title := value);
      case DescriptionField => editData := editData.(description := value);
      case PriorityField => editData := editData.(priority := value);
      case AssignedToField => editData := editData.(assignedTo := value);
    }

    /**
     * `handleStatusChange`: clears the error, refuses Open to Done judged from the stored
     * `issue.status`, and otherwise sends `{status}` at once and mirrors it in `editData`.
     */
    method HandleStatusChange(newStatus: string)
      modifies this
      ensures issue == old(issue) && isEditing == old(isEditing)
      ensures !TransitionAllowed(issue.status, newStatus) ==>
        statusError == STATUS_ERROR && sent == old(sent) && editData == old(editData)
      ensures TransitionAllowed(issue.status, newStatus) ==>
        && statusError == ""
        && sent == old(sent) + [UpdateCall(issue.id, StatusOnly(newStatus))]
        && editData == old(editData).(status := newStatus)
      ensures old(NoIllegalPending()) ==> NoIllegalPending()
    {
      statusError := "";
      if issue.status == OPEN && newStatus == DONE {
        statusError := STATUS_ERROR;
        return;
      }
      sent := sent + [UpdateCall(issue.id, StatusOnly(newStatus))];
      editData := editData.(status := newStatus);
    }

    /**
     * `handleSave`: clears the error; with the stored status Open and Done in `editData` it
     * refuses and stays in edit mode, otherwise it sends the whole `editData` and leaves edit mode.
     */
    method HandleSave()
      modifies this
      ensures issue == old(issue) && editData == old(editData)
      ensures !TransitionAllowed(issue.status, editData.status) ==>
        statusError == STATUS_ERROR && sent == old(sent) && isEditing == old(isEditing)
      ensures TransitionAllowed(issue.status, editData.status) ==>
        statusError == "" && sent == old(sent) + [UpdateCall(issue.id, FullPatch(editData))] && !isEditing
      ensures old(NoIllegalPending()) ==> NoIllegalPending() && !isEditing && statusError == ""
    {
      statusError := "";
      if issue.status == OPEN && editData.status == DONE {
        statusError := STATUS_ERROR;
        return;
      }
      sent := sent + [UpdateCall(issue.id, FullPatch(editData))];
      isEditing := false;
    }

    /** The Delete button: asks the parent to delete this issue; the row's own state is untouched. */
    method HandleDelete()
      modifies this
      ensures sent == old(sent) + [DeleteCall(issue.id)]
      ensures issue == old(issue) && editData == old(editData)
      ensures isEditing == old(isEditing) && statusError == old(statusError)
    {
      sent := sent + [DeleteCall(issue.id)];
    }

    /** `handleCancel`: restores the five fields from `issue`, leaves edit mode and clears the error. */
    method HandleCancel()
      modifies this
      ensures editData == FieldsOf(issue) && !isEditing && statusError == ""
      ensures issue == old(issue) && sent == old(sent)
      ensures NoIllegalPending()
    {
      editData := FieldsOf(issue);
      isEditing := false;
      statusError := "";
    }
  }

  /**
   * A save reached through the row's own handlers only, with no re-render, goes through: editing
   * an Open issue, moving it to In Progress and saving sends the edit and leaves edit mode.
   */
  method SaveAfterOwnHandlers(issue: Issue, title: string) returns (saved: bool)
    requires issue.status == OPEN
    ensures saved
  {
    var row := new IssueRow(issue);
    row.StartEdit();
    row.ChangeField(TitleField, title);
    row.HandleStatusChange(IN_PROGRESS);
    row.HandleSave();
    saved := !row.isEditing && row.statusError == "" && |row.sent| == 2;
  }

  /** Both handlers decide from the stored status: a pending In Progress in `editData` does not unlock Done. */
  method PendingStatusDoesNotUnlockDone(issue: Issue) returns (refused: bool)
    requires issue.status == OPEN
    ensures refused
  {
    var row := new IssueRow(issue);
    row.StartEdit();
    row.HandleStatusChange(IN_PROGRESS);
    assert row.editData.status == IN_PROGRESS;
    row.HandleStatusChange(DONE);
    refused := row.statusError == STATUS_ERROR && |row.sent| == 1;
  }

  /** After the parent re-renders with the stored status In Progress, Done goes through. */
  method DoneAfterRefresh(issue: Issue) returns (accepted: bool)
    requires issue.status == OPEN
    ensures accepted
  {
    var row := new IssueRow(issue);
    row.StartEdit();
    row.HandleStatusChange(IN_PROGRESS);
    row.Rerender(issue.(status := IN_PROGRESS));
    row.HandleStatusChange(DONE);
    accepted := row.statusError == "" && row.editData.status == DONE
      && row.sent == [UpdateCall(issue.id, StatusOnly(IN_PROGRESS)), UpdateCall(issue.id, StatusOnly(DONE))];
  }
}

=== FILE: issue_list.dfy ===
/**
 * The issue table: a copy of the issues sorted newest first by `createdAt`, a missing
 * timestamp counting as the epoch, with an empty-state message for an empty list.
 */
module IssueList {
  import opened Issues

  /** Every issue is at least as new as every issue after it. */
  predicate NewestFirst(s: seq<Issue>) {
    forall i, j :: 0 <= i < j < |s| ==> CreatedKey(s[i]) >= CreatedKey(s[j])
  }

  /** The issues of `s` whose sort time is `t`, in their order in `s`. */
  function WithTime(s: seq<Issue>, t: int): (r: seq<Issue>)
    ensures forall x :: x in r ==> x in s && CreatedKey(x) == t
  {
    if s == [] then []
    else if CreatedKey(s[0]) == t then [s[0]] + WithTime(s[1..], t)
    else WithTime(s[1..], t)
  }

  /**
   * Places `x` before the first issue that is not newer than it. An issue inserted in front of
   * a sorted list therefore stays ahead of the issues with the same time.
   */
  function Insert(x: Issue, s: seq<Issue>): (r: seq<Issue>)
    requires NewestFirst(s)
    ensures NewestFirst(r)
    ensures |r| == |s| + 1
    ensures forall y :: y in r ==> y == x || y in s
  {
    if s == [] || CreatedKey(s[0]) <= CreatedKey(x) then
      NotOlderThanHeadIsNewest(x, s);
      [x] + s
    else
      var rest := Insert(x, s[1..]);
      var r := [s[0]] + rest;
      assert forall j :: 1 <= j < |r| ==> r[j] in rest;
      r
  }

  /** Inserting adds exactly `x` to the multiset of issues. */
  lemma {:induction false} InsertPermutes(x: Issue, s: seq<Issue>)
    requires NewestFirst(s)
    ensures multiset(Insert(x, s)) == multiset(s) + multiset{x}
  {
    if !(s == [] || CreatedKey(s[0]) <= CreatedKey(x)) {
      InsertPermutes(x, s[1..]);
      assert s == [s[0]] + s[1..];
    }
  }

  /** Inserting `x` adds it in front of the issues that share its time and leaves other times alone. */
  lemma {:induction false} InsertWithTime(x: Issue, s: seq<Issue>, t: int)
    requires NewestFirst(s)
    ensures WithTime(Insert(x, s), t) == if CreatedKey(x) == t then [x] + WithTime(s, t) else WithTime(s, t)
  {
    if s == [] || CreatedKey(s[0]) <= CreatedKey(x) {
      assert Insert(x, s) == [x] + s;
      assert ([x] + s)[1..] == s;
    } else {
      var rest := Insert(x, s[1..]);
      assert Insert(x, s) == [s[0]] + rest;
      assert ([s[0]] + rest)[1..] == rest;
      InsertWithTime(x, s[1..], t);
      if CreatedKey(x) == t {
        assert CreatedKey(s[0]) != t;
      }
    }
  }

  /** When `x` is at least as new as the head of a sorted list, no issue of the list is newer than `x`. */
  lemma NotOlderThanHeadIsNewest(x: Issue, s: seq<Issue>)
    requires NewestFirst(s)
    requires s == [] || CreatedKey(s[0]) <= CreatedKey(x)
    ensures forall y :: y in s ==> CreatedKey(y) <= CreatedKey(x)
  {
  }

  /**
   * `[...issues].sort((a, b) => timeB - timeA)`: a stable sort, newest first. Stability is stated
   * per timestamp: the issues sharing a time keep their input order.
   */
  function SortNewestFirst(s: seq<Issue>): (r: seq<Issue>)
    ensures NewestFirst(r)
    ensures |r| == |s|
    ensures multiset(r) == multiset(s)
    ensures forall t :: WithTime(r, t) == WithTime(s, t)
  {
    if s == [] then []
    else
      var rest := SortNewestFirst(s[1..]);
      assert s == [s[0]] + s[1..];
      InsertPermutes(s[0], rest);
      assert forall t :: WithTime(Insert(s[0], rest), t) == WithTime(s, t) by {
        forall t ensures WithTime(Insert(s[0], rest), t) == WithTime(s, t) {
          InsertWithTime(s[0], rest, t);
        }
      }
      Insert(s[0], rest)
  }

  /** Adjacent rows of the table satisfy `createdAt[i] >= createdAt[i + 1]`. */
  lemma AdjacentNewestFirst(s: seq<Issue>, i: nat)
    requires i + 1 < |s|
    ensures CreatedKey(SortNewestFirst(s)[i]) >= CreatedKey(SortNewestFirst(s)[i + 1])
  {
  }

  /** An issue without a timestamp is listed after every issue with a positive one. */
  lemma UndatedSortsLast(s: seq<Issue>, i: nat, j: nat)
    requires i < |SortNewestFirst(s)| && j < |SortNewestFirst(s)|
    requires SortNewestFirst(s)[i].createdAt.None?
    requires SortNewestFirst(s)[j].createdAt.Some? && SortNewestFirst(s)[j].createdAt.value > 0
    ensures j < i
  {
  }

  /** The head of a newest-first list is at least as new as any issue in it. */
  lemma HeadIsNewest(s: seq<Issue>, x: Issue)
    requires NewestFirst(s) && x in s
    ensures CreatedKey(x) <= CreatedKey(s[0])
  {
  }

  /** A list with an issue of time `t` has that issue in its `WithTime(_, t)` part. */
  lemma {:induction false} WithTimeHasHead(s: seq<Issue>)
    requires s != []
    ensures WithTime(s, CreatedKey(s[0])) == [s[0]] + WithTime(s[1..], CreatedKey(s[0]))
  {
  }

  lemma {:induction false} WithTimeNonEmpty(s: seq<Issue>, x: Issue)
    requires x in s
    ensures WithTime(s, CreatedKey(x)) != []
  {
    if s[0] != x {
      WithTimeNonEmpty(s[1..], x);
    }
  }

  /**
   * Two newest-first lists that agree on the issues of every timestamp, in order, are equal:
   * the sorted result is determined by the input alone, whatever sorting algorithm runs.
   */
  lemma {:induction false} SortedIsUnique(a: seq<Issue>, b: seq<Issue>)
    requires NewestFirst(a) && NewestFirst(b)
    requires forall t :: WithTime(a, t) == WithTime(b, t)
    ensures a == b
  {
    if a == [] || b == [] {
      var c := if a == [] then b else a;
      if c != [] {
        WithTimeHasHead(c);
      }
    } else {
      var t := CreatedKey(a[0]);
      WithTimeNonEmpty(a, a[0]);
      var u := CreatedKey(b[0]);
      WithTimeNonEmpty(b, b[0]);
      var xa := WithTime(a, u)[0];
      var xb := WithTime(b, t)[0];
      assert xa in a && CreatedKey(xa) == u;
      assert xb in b && CreatedKey(xb) == t;
      HeadIsNewest(a, xa);
      HeadIsNewest(b, xb);
      assert t == u;
      WithTimeHasHead(a);
      WithTimeHasHead(b);
      assert a[0] == b[0];
      forall v ensures WithTime(a[1..], v) == WithTime(b[1..], v) {
        if v == t {
          assert WithTime(a, t) == [a[0]] + WithTime(a[1..], t);
          assert WithTime(b, t) == [b[0]] + WithTime(b[1..], t);
          assert ([a[0]] + WithTime(a[1..], t))[1..] == WithTime(a[1..], t);
          assert ([b[0]] + WithTime(b[1..], t))[1..] == WithTime(b[1..], t);
        } else {
          assert WithTime(a, v) == WithTime(a[1..], v);
          assert WithTime(b, v) == WithTime(b[1..], v);
        }
      }
      SortedIsUnique(a[1..], b[1..]);
      assert a == [a[0]] + a[1..] && b == [b[0]] + b[1..];
    }
  }

  /** A list that is already newest first comes back unchanged. */
  lemma SortKeepsSorted(s: seq<Issue>)
    requires NewestFirst(s)
    ensures SortNewestFirst(s) == s
  {
    SortedIsUnique(SortNewestFirst(s), s);
  }

  /** Sorting twice is sorting once. */
  lemma SortIdempotent(s: seq<Issue>)
    ensures SortNewestFirst(SortNewestFirst(s)) == SortNewestFirst(s)
  {
    SortKeepsSorted(SortNewestFirst(s));
  }

  /** Two inputs that are rearrangements of each other, keeping the order within each time, sort alike. */
  lemma SortDependsOnlyOnTimeGroups(a: seq<Issue>, b: seq<Issue>)
    requires forall t :: WithTime(a, t) == WithTime(b, t)
    ensures SortNewestFirst(a) == SortNewestFirst(b)
  {
    SortedIsUnique(SortNewestFirst(a), SortNewestFirst(b));
  }

  /** What the list component renders. */
  datatype ListView = EmptyState | Table(rows: seq<Issue>)

  /** `IssueList`: the empty-state message for no issues, otherwise the sorted table. */
  function Render(issues: seq<Issue>): (v: ListView)
    ensures v.EmptyState? <==> issues == []
    ensures v.Table? ==> NewestFirst(v.rows) && multiset(v.rows) == multiset(issues)
  {
    var sorted := SortNewestFirst(issues);
    if |sorted| == 0 then
      assert multiset(issues) == multiset{};
      EmptyState
    else
      Table(sorted)
  }
}

=== FILE: issue_service.dfy ===
/**
 * The issue store client: create, list, update and delete against the remote `issues`
 * collection, which is modelled as a map from document id to document data.
 */
module IssueService {
  import opened Wrappers
  import opened Issues

  const CREATE_FAILED := "Failed to create issue. Please try again."
  const UPDATE_STATUS_FAILED := "Failed to update issue status. Please try again."
  const UPDATE_FAILED := "Failed to update issue. Please try again."
  const DELETE_FAILED := "Failed to delete issue. Please try again."

  /**
   * The document `createIssue` writes. The caller's `status` is never read: every new issue
   * starts Open. `createdBy` is the signed-in user's email and `createdAt` the server time.
   */
  function NewDoc(input: IssueFields, createdBy: Option<string>, now: int): (d: IssueDoc)
    ensures d.status == OPEN
    ensures d.createdBy == createdBy && d.createdAt == now
  {
    IssueDoc(input.title, input.description, input.priority, OPEN, input.assignedTo, createdBy, now)
  }

  /** Two submissions that differ only in their status create the same document. */
  lemma CreateIgnoresStatus(a: IssueFields, b: IssueFields, createdBy: Option<string>, now: int)
    requires a.(status := b.status) == b
    ensures NewDoc(a, createdBy, now) == NewDoc(b, createdBy, now)
  {
  }

  /** Reading a created issue back gives the submitted fields with the status replaced by Open. */
  lemma CreatedRecordRoundTrip(id: string, input: IssueFields, createdBy: Option<string>, now: int)
    ensures FieldsOf(Record(id, NewDoc(input, createdBy, now))) == input.(status := OPEN)
    ensures Record(id, NewDoc(input, createdBy, now)).createdBy == createdBy
  {
  }

  /** `updateDoc`: every field the patch carries overwrites the stored one; the rest stay. */
  function ApplyPatch(d: IssueDoc, p: IssuePatch): (r: IssueDoc)
    ensures r.createdBy == d.createdBy && r.createdAt == d.createdAt
    ensures p.title.Some? ==> r.title == p.title.value
    ensures p.title.None? ==> r.title == d.title
    ensures p.description.Some? ==> r.description == p.description.value
    ensures p.description.None? ==> r.description == d.description
    ensures p.priority.Some? ==> r.priority == p.priority.value
    ensures p.priority.None? ==> r.priority == d.priority
    ensures p.status.Some? ==> r.status == p.status.value
    ensures p.status.None? ==> r.status == d.status
    ensures p.assignedTo.Some? ==> r.assignedTo == p.assignedTo.value
    ensures p.assignedTo.None? ==> r.assignedTo == d.assignedTo
  {
    IssueDoc(
      if p.title.Some? then p.title.value else d.title,
      if p.description.Some? then p.description.value else d.description,
      if p.priority.Some? then p.priority.value else d.priority,
      if p.status.Some? then p.status.value else d.status,
      if p.assignedTo.Some? then p.assignedTo.value else d.assignedTo,
      d.createdBy,
      d.createdAt)
  }

  /** A status-only update changes the status and nothing else. */
  lemma StatusUpdateTouchesOnlyStatus(d: IssueDoc, status: string)
    ensures ApplyPatch(d, StatusOnly(status)) == d.(status := status)
  {
  }

  /** A full `editData` update leaves the document holding exactly the edited fields. */
  lemma FullUpdateStoresEdit(d: IssueDoc, f: IssueFields, id: string)
    ensures FieldsOf(Record(id, ApplyPatch(d, FullPatch(f)))) == f
  {
  }

  /** Writing the same patch twice has the effect of writing it once. */
  lemma ApplyPatchIdempotent(d: IssueDoc, p: IssuePatch)
    ensures ApplyPatch(ApplyPatch(d, p), p) == ApplyPatch(d, p)
  {
  }

  /** The ids of `order` name stored documents whose `createdAt` strictly increases along it. */
  ghost predicate Increasing(docs: map<string, IssueDoc>, order: seq<string>) {
    forall i, j :: 0 <= i < j < |order| ==>
      order[i] in docs && order[j] in docs && docs[order[i]].createdAt < docs[order[j]].createdAt
  }

  /** `order` without the id `x`. */
  function Without(order: seq<string>, x: string): (r: seq<string>)
    ensures forall y :: y in r <==> y in order && y != x
  {
    if order == [] then []
    else if order[0] == x then Without(order[1..], x)
    else [order[0]] + Without(order[1..], x)
  }

  /** Removing a document (and its id) keeps creation times strictly increasing along `order`. */
  lemma {:induction false} WithoutKeepsIncreasing(docs: map<string, IssueDoc>, order: seq<string>, x: string)
    requires |order| > 0 ==> order[0] in docs
    requires Increasing(docs, order)
    ensures Increasing(docs - {x}, Without(order, x))
  {
    if order != [] {
      var tail := order[1..];
      TailIncreasing(docs, order);
      if |order| > 1 {
        assert tail[0] == order[1];
      }
      WithoutKeepsIncreasing(docs, tail, x);
      var rest := Without(tail, x);
      if order[0] == x {
        assert Without(order, x) == rest;
      } else {
        assert Without(order, x) == [order[0]] + rest;
        forall z | z in rest
          ensures z in docs - {x} && docs[order[0]].createdAt < docs[z].createdAt
        {
          HeadIsOldest(docs, order, z);
        }
        PrependKeepsIncreasing(docs - {x}, order[0], rest);
      }
    }
  }

  /** Dropping the oldest id keeps the order increasing. */
  lemma {:induction false} TailIncreasing(docs: map<string, IssueDoc>, order: seq<string>)
    requires order != [] && Increasing(docs, order)
    ensures Increasing(docs, order[1..])
  {
    forall i, j | 0 <= i < j < |order[1..]|
      ensures order[1..][i] in docs && order[1..][j] in docs
      ensures docs[order[1..][i]].createdAt < docs[order[1..][j]].createdAt
    {
      var i', j' := i + 1, j + 1;
      assert order[1..][i] == order[i'] && order[1..][j] == order[j'] && 0 <= i' < j' < |order|;
      assert order[i'] in docs && order[j'] in docs && docs[order[i']].createdAt < docs[order[j']].createdAt;
    }
  }

  /** The first id of an increasing order is older than every later one. */
  lemma {:induction false} HeadIsOldest(docs: map<string, IssueDoc>, order: seq<string>, z: string)
    requires order != [] && Increasing(docs, order) && z in order[1..]
    ensures z in docs && order[0] in docs && docs[order[0]].createdAt < docs[z].createdAt
  {
    var m :| 0 <= m < |order[1..]| && order[1..][m] == z;
    var k := m + 1;
    assert order[k] == z && 0 < k < |order|;
    assert order[0] in docs && order[k] in docs && docs[order[0]].createdAt < docs[order[k]].createdAt;
  }

  /** An id older than all of an increasing order may be put in front of it. */
  lemma {:induction false} PrependKeepsIncreasing(docs: map<string, IssueDoc>, y: string, rest: seq<string>)
    requires y in docs && Increasing(docs, rest)
    requires forall z :: z in rest ==> z in docs && docs[y].createdAt < docs[z].createdAt
    ensures Increasing(docs, [y] + rest)
  {
    var r := [y] + rest;
    forall i, j | 0 <= i < j < |r|
      ensures r[i] in docs && r[j] in docs && docs[r[i]].createdAt < docs[r[j]].createdAt
    {
      if i == 0 {
        assert r[j] == rest[j - 1] && rest[j - 1] in rest;
      } else {
        assert r[i] == rest[i - 1] && r[j] == rest[j - 1];
      }
    }
  }

  /** The records a successful `fetchIssues` returns for this collection: newest first. */
  function Listing(docs: map<string, IssueDoc>, order: seq<string>): (r: seq<Issue>)
    requires forall id :: id in order ==> id in docs
    ensures |r| == |order|
    ensures forall k :: 0 <= k < |r| ==> r[k] == Record(order[|order| - 1 - k], docs[order[|order| - 1 - k]])
  {
    if order == [] then []
    else
      var last := order[|order| - 1];
      [Record(last, docs[last])] + Listing(docs, order[..|order| - 1])
  }

  class IssueStore {
    /** The collection: document id to document data. */
    var docs: map<string, IssueDoc>
    /** The document ids in creation order, oldest first: the order `createdAt` imposes. */
    var order: seq<string>

    ghost predicate Valid()
      reads this
    {
      && (forall id :: id in docs <==> id in order)
      && Increasing(docs, order)
    }

    constructor ()
      ensures Valid() && docs == map[] && order == []
    {
      docs := map[];
      order := [];
    }

    /**
     * `createIssue`. The id allocator, the server clock, `auth.currentUser` and a failure of
     * the remote write are parameters; the store hands out fresh ids and its clock moves forward.
     */
    method CreateIssue(input: IssueFields, currentEmail: Option<string>, newId: string, now: int, fails: bool)
      returns (r: Outcome)
      requires Valid()
      requires newId !in docs
      requires forall id :: id in docs ==> docs[id].createdAt < now
      modifies this
      ensures Valid()
      ensures fails ==> r == Failed(CREATE_FAILED) && docs == old(docs) && order == old(order)
      ensures !fails ==> r == Ok && order == old(order) + [newId]
      ensures !fails ==> docs == old(docs)[newId := NewDoc(input, currentEmail, now)]
    {
      if fails {
        r := Failed(CREATE_FAILED);
        return;
      }
      docs := docs[newId := NewDoc(input, currentEmail, now)];
      order := order + [newId];
      r := Ok;
    }

    /**
     * `fetchIssues`: every stored document once, as `{id, ...data}`, newest first. A failing
     * read is swallowed and yields the empty list; nothing is thrown.
     */
    method FetchIssues(fails: bool) returns (r: seq<Issue>)
      requires Valid()
      ensures fails ==> r == []
      ensures !fails ==> r == Listing(docs, order)
      ensures !fails ==> forall i, j :: 0 <= i < j < |r| ==> r[i].id != r[j].id
      ensures !fails ==> forall k :: 0 <= k < |r| ==> r[k].id in docs && r[k] == Record(r[k].id, docs[r[k].id])
      ensures !fails ==> forall id :: id in docs ==> exists k :: 0 <= k < |r| && r[k].id == id
      ensures !fails ==> forall i, j :: 0 <= i < j < |r| ==> CreatedKey(r[i]) > CreatedKey(r[j])
    {
      if fails {
        return [];
      }
      r := Listing(docs, order);
      ListingRecords(docs, order);
      ListingCoversAll(docs, order);
      ListingNewestFirst(docs, order);
    }

    /** `updateIssueStatus`: writes `{status}` only. Writing to a missing id fails like any remote error. */
    method UpdateIssueStatus(issueId: string, newStatus: string, fails: bool) returns (r: Outcome)
      requires Valid()
      modifies this
      ensures Valid() && order == old(order)
      ensures r.Ok? <==> !fails && issueId in old(docs)
      ensures r.Failed? ==> r.message == UPDATE_STATUS_FAILED && docs == old(docs)
      ensures r.Ok? ==> docs == old(docs)[issueId := old(docs)[issueId].(status := newStatus)]
    {
      if fails || issueId !in docs {
        return Failed(UPDATE_STATUS_FAILED);
      }
      StatusUpdateTouchesOnlyStatus(docs[issueId], newStatus);
      docs := docs[issueId := ApplyPatch(docs[issueId], StatusOnly(newStatus))];
      r := Ok;
    }

    /** `updateIssue`: writes the patch as given, without validating any field. */
    method UpdateIssue(issueId: string, patch: IssuePatch, fails: bool) returns (r: Outcome)
      requires Valid()
      modifies this
      ensures Valid() && order == old(order)
      ensures r.Ok? <==> !fails && issueId in old(docs)
      ensures r.Failed? ==> r.message == UPDATE_FAILED && docs == old(docs)
      ensures r.Ok? ==> docs == old(docs)[issueId := ApplyPatch(old(docs)[issueId], patch)]
    {
      if fails || issueId !in docs {
        return Failed(UPDATE_FAILED);
      }
      docs := docs[issueId := ApplyPatch(docs[issueId], patch)];
      r := Ok;
    }

    /** `deleteIssue`: removes the document; deleting an id that is not stored succeeds and changes nothing. */
    method DeleteIssue(issueId: string, fails: bool) returns (r: Outcome)
      requires Valid()
      modifies this
      ensures Valid()
      ensures fails ==> r == Failed(DELETE_FAILED) && docs == old(docs) && order == old(order)
      ensures !fails ==> r == Ok && docs == old(docs) - {issueId} && order == Without(old(order), issueId)
    {
      if fails {
        return Failed(DELETE_FAILED);
      }
      if |order| > 0 {
        assert order[0] in order;
      }
      WithoutKeepsIncreasing(docs, order, issueId);
      docs := docs - {issueId};
      order := Without(order, issueId);
      r := Ok;
    }
  }

  /** Each listed record is a stored document under its own id. */
  lemma ListingRecords(docs: map<string, IssueDoc>, order: seq<string>)
    requires forall id :: id in order ==> id in docs
    ensures var r := Listing(docs, order);
      forall k :: 0 <= k < |r| ==> r[k].id in docs && r[k] == Record(r[k].id, docs[r[k].id])
  {
    var r := Listing(docs, order);
    var n := |order|;
    forall k | 0 <= k < n ensures r[k].id in docs && r[k] == Record(r[k].id, docs[r[k].id]) {
      assert r[k] == Record(order[n - 1 - k], docs[order[n - 1 - k]]);
    }
  }

  /** Every stored document appears in the listing of a valid collection. */
  lemma ListingCoversAll(docs: map<string, IssueDoc>, order: seq<string>)
    requires forall id :: id in docs <==> id in order
    ensures forall id :: id in docs ==> exists k :: 0 <= k < |Listing(docs, order)| && Listing(docs, order)[k].id == id
  {
    var r := Listing(docs, order);
    var n := |order|;
    forall id | id in docs ensures exists k :: 0 <= k < |r| && r[k].id == id {
      assert id in order;
      var m :| 0 <= m < n && order[m] == id;
      var k := n - 1 - m;
      assert 0 <= k < |r|;
      assert r[k] == Record(order[n - 1 - k], docs[order[n - 1 - k]]);
      assert r[k].id == id;
    }
    assert forall id :: id in docs ==> exists k :: 0 <= k < |r| && r[k].id == id;
    assert r == Listing(docs, order);
  }

  /** The listing of a valid collection is strictly newest first. */
  lemma ListingNewestFirst(docs: map<string, IssueDoc>, order: seq<string>)
    requires forall id :: id in order ==> id in docs
    requires Increasing(docs, order)
    ensures var r := Listing(docs, order);
      forall i, j :: 0 <= i < j < |r| ==> CreatedKey(r[i]) > CreatedKey(r[j])
  {
    var r := Listing(docs, order);
    var n := |order|;
    forall i, j | 0 <= i < j < |r| ensures CreatedKey(r[i]) > CreatedKey(r[j]) {
      assert r[i] == Record(order[n - 1 - i], docs[order[n - 1 - i]]);
      assert r[j] == Record(order[n - 1 - j], docs[order[n - 1 - j]]);
    }
  }
}

=== FILE: issues.dfy ===
/** The issue records the components and the store exchange. */
module Issues {
  import opened Wrappers

  const OPEN := "Open"
  const IN_PROGRESS := "In Progress"
  const DONE := "Done"

  const LOW := "Low"
  const MEDIUM := "Medium"
  const HIGH := "High"

  /** The five user-editable fields: the create form's `formData` and an edit row's `editData`. */
  datatype IssueFields = IssueFields(
    title: string,
    description: string,
    priority: string,
    status: string,
    assignedTo: string)

  /** The data of one stored document, as `createIssue` writes it. */
  datatype IssueDoc = IssueDoc(
    title: string,
    description: string,
    priority: string,
    status: string,
    assignedTo: string,
    createdBy: Option<string>,
    createdAt: int)

  /**
   * An issue as the components receive it: the document id followed by the document's data.
   * `createdAt` is `None` for a record that carries no timestamp.
   */
  datatype Issue = Issue(
    id: string,
    title: string,
    description: string,
    priority: string,
    status: string,
    assignedTo: string,
    createdBy: Option<string>,
    createdAt: Option<int>)

  /** An update object: the fields it carries are `Some`, the fields it omits are `None`. */
  datatype IssuePatch = IssuePatch(
    title: Option<string>,
    description: Option<string>,
    priority: Option<string>,
    status: Option<string>,
    assignedTo: Option<string>)

  /** The identity `{email, uid}` the app keeps for the signed-in user. */
  datatype UserData = UserData(email: string, uid: string)

  /** `{ status: newStatus }`. */
  function StatusOnly(status: string): (p: IssuePatch)
    ensures p.status == Some(status)
    ensures p.title.None? && p.description.None? && p.priority.None? && p.assignedTo.None?
  {
    IssuePatch(None, None, None, Some(status), None)
  }

  /** An `editData` record sent as an update: every editable field present. */
  function FullPatch(f: IssueFields): (p: IssuePatch)
    ensures p.title.Some? && p.description.Some? && p.priority.Some? && p.status.Some? && p.assignedTo.Some?
  {
    IssuePatch(Some(f.title), Some(f.description), Some(f.priority), Some(f.status), Some(f.assignedTo))
  }

  /** The editable fields of an issue, as an edit row initialises `editData`. */
  function FieldsOf(i: Issue): IssueFields {
    IssueFields(i.title, i.description, i.priority, i.status, i.assignedTo)
  }

  /** The time an issue sorts by: its `createdAt`, or the epoch (0) when it has none. */
  function CreatedKey(i: Issue): int {
    match i.createdAt
    case Some(t) => t
    case None => 0
  }

  /** `{ id: docSnap.id, ...docSnap.data() }`. */
  function Record(id: string, d: IssueDoc): (i: Issue)
    ensures i.id == id && i.createdAt == Some(d.createdAt)
  {
    Issue(id, d.title, d.description, d.priority, d.status, d.assignedTo, d.createdBy, Some(d.createdAt))
  }
}

=== FILE: login.dfy ===
/**
 * The login page: the emptiness check, the email pattern `^[^\s@]+@[^\s@]+\.[^\s@]+$`, and the
 * submit handler that reports the signed-in user to the application and moves to the dashboard.
 */
module Login {
  import opened Wrappers
  import opened Text
  import opened Issues

  const FILL_ALL_FIELDS := "Please fill in all fields"
  const INVALID_EMAIL := "Please enter a valid email address"
  const LOGIN_FAILED := "Failed to login. Please check your credentials."
  const DASHBOARD_PATH := "/dashboard"

  /** A character the class `[^\s@]` accepts. */
  predicate Plain(c: char) {
    !IsSpace(c) && c != '@'
  }

  /** A run of `[^\s@]` characters (possibly empty; the pattern's `+` is stated by the caller). */
  predicate AllPlain(t: string) {
    forall k :: 0 <= k < |t| ==> Plain(t[k])
  }

  /**
   * The language of the email pattern: a non-empty local part, `@`, a non-empty run, `.`, and a
   * non-empty run, where no part holds whitespace or `@`. The dot may be any dot of the domain.
   */
  ghost predicate MatchesEmailPattern(s: string) {
    exists at, dot | 0 < at && at + 1 < dot && dot + 1 < |s| ::
      && s[at] == '@' && s[dot] == '.'
      && AllPlain(s[..at]) && AllPlain(s[at + 1..dot]) && AllPlain(s[dot + 1..])
  }

  /** A domain with a `.` that has at least one character on each side. */
  predicate HasInnerDot(domain: string) {
    |domain| >= 3 && '.' in domain[1..|domain| - 1]
  }

  /**
   * The email test as a scan: no whitespace anywhere, a first `@` that is not the first
   * character, no second `@`, and an inner dot in what follows it.
   */
  predicate ValidEmail(s: string) {
    var at := IndexOf(s, '@');
    && (forall k :: 0 <= k < |s| ==> !IsSpace(s[k]))
    && 0 < at < |s|
    && '@' !in s[at + 1..]
    && HasInnerDot(s[at + 1..])
  }

  /** The scan accepts exactly the strings the pattern matches. */
  lemma ValidEmailIsPattern(s: string)
    ensures ValidEmail(s) <==> MatchesEmailPattern(s)
  {
    if ValidEmail(s) {
      ValidEmailMatches(s);
    }
    if MatchesEmailPattern(s) {
      PatternIsValidEmail(s);
    }
  }

  lemma ValidEmailMatches(s: string)
    requires ValidEmail(s)
    ensures MatchesEmailPattern(s)
  {
    var at := IndexOf(s, '@');
    IndexOfIsFirst(s, '@');
    var d := s[at + 1..];
    var p :| 1 <= p < |d| - 1 && d[p] == '.' by {
      assert '.' in d[1..|d| - 1];
      var q :| 0 <= q < |d| - 2 && d[1..|d| - 1][q] == '.';
      assert d[q + 1] == '.';
    }
    var dot := at + 1 + p;
    assert s[dot] == d[p];
    assert AllPlain(s[..at]);
    var b, c := s[at + 1..dot], s[dot + 1..];
    forall k | 0 <= k < |b| ensures Plain(b[k]) {
      assert b[k] == d[k];
    }
    forall k | 0 <= k < |c| ensures Plain(c[k]) {
      assert c[k] == d[p + 1 + k];
    }
  }

  lemma PatternIsValidEmail(s: string)
    requires MatchesEmailPattern(s)
    ensures ValidEmail(s)
  {
    var at, dot :| 0 < at && at + 1 < dot && dot + 1 < |s|
      && s[at] == '@' && s[dot] == '.'
      && AllPlain(s[..at]) && AllPlain(s[at + 1..dot]) && AllPlain(s[dot + 1..]);
    SplitAround(s, at, dot);
    PartsAreValidEmail(s[..at], s[at + 1..dot], s[dot + 1..]);
  }

  /** A string cut at an `@` and a later `.` is its three parts joined by them. */
  lemma SplitAround(s: string, at: nat, dot: nat)
    requires at < dot < |s| && s[at] == '@' && s[dot] == '.'
    ensures s == s[..at] + ['@'] + s[at + 1..dot] + ['.'] + s[dot + 1..]
  {
    assert s[..at + 1] == s[..at] + ['@'];
    assert s[..dot] == s[..at + 1] + s[at + 1..dot];
    assert s[..dot + 1] == s[..dot] + ['.'];
    assert s == s[..dot + 1] + s[dot + 1..];
  }

  /** Any local part, `@`, run, `.`, run, each non-empty and plain, passes the scan. */
  lemma PartsAreValidEmail(a: string, b: string, c: string)
    requires a != [] && b != [] && c != []
    requires AllPlain(a) && AllPlain(b) && AllPlain(c)
    ensures ValidEmail(a + ['@'] + b + ['.'] + c)
  {
    var d := b + ['.'] + c;
    var s := a + ['@'] + d;
    assert s == a + ['@'] + b + ['.'] + c;
    forall k | 0 <= k < |d| ensures Plain(d[k]) {
      CharOfJoin(b, '.', c, k);
    }
    forall k | 0 <= k < |s| ensures !IsSpace(s[k]) && (k < |a| ==> s[k] != '@') {
      CharOfJoin(a, '@', d, k);
    }
    IndexOfAt(s, '@', |a|);
    assert s[|a| + 1..] == d;
    assert d[1..|d| - 1][|b| - 1] == '.';
  }

  /** The `k`-th character of `x`, then `ch`, then `y`. */
  lemma CharOfJoin(x: string, ch: char, y: string, k: nat)
    requires k < |x| + 1 + |y|
    ensures (x + [ch] + y)[k] == if k < |x| then x[k] else if k == |x| then ch else y[k - |x| - 1]
  {
  }

  /**
   * The checks of `handleSubmit` before any sign-in: an error message, or `None` when the
   * credentials go on to the sign-in call.
   */
  function ValidateLogin(email: string, password: string): (r: Option<string>)
    ensures email == [] || password == [] <==> r == Some(FILL_ALL_FIELDS)
    ensures r == Some(INVALID_EMAIL) <==> email != [] && password != [] && !MatchesEmailPattern(email)
    ensures r == None <==> email != [] && password != [] && MatchesEmailPattern(email)
  {
    ValidEmailIsPattern(email);
    if email == [] || password == [] then Some(FILL_ALL_FIELDS)
    else if !ValidEmail(email) then Some(INVALID_EMAIL)
    else None
  }

  /** The password is only tested for emptiness: a password of spaces goes on to the sign-in call. */
  lemma WhitespacePasswordAccepted()
    ensures ValidateLogin("a@b.co", "   ") == None
  {
    IndexOfAt("a@b.co", '@', 1);
    assert "a@b.co"[2..] == "b.co";
    assert "b.co"[1..3] == ".c";
  }

  /** A dot right after the `@` does not count: "a@.com" has no text between `@` and its only dot. */
  lemma DotAfterAtRejected()
    ensures !ValidEmail("a@.com")
  {
    IndexOfAt("a@.com", '@', 1);
    assert "a@.com"[2..] == ".com";
    assert ".com"[1..3] == "co";
  }

  /** A second `@` is rejected even when each side looks like an address. */
  lemma TwoAtSignsRejected()
    ensures !ValidEmail("a@b@c.d")
  {
    IndexOfAt("a@b@c.d", '@', 1);
    assert "a@b@c.d"[2..] == "b@c.d";
    assert "b@c.d"[1] == '@';
  }

  /** What the sign-in call gives back: the signed-in user, or an error with its message. */
  datatype SignInResult = SignedIn(user: UserData) | SignInFailed(message: string)

  class LoginPage {
    var email: string
    var password: string
    var error: string
    /** The credentials passed to the sign-in call, oldest first. */
    var signInCalls: seq<(string, string)>
    /** The users reported through `onLogin`, oldest first. */
    var reported: seq<UserData>
    /** The paths passed to `navigate`, oldest first. */
    var navigations: seq<string>

    /** First render: both inputs and the error empty, nothing called. */
    constructor ()
      ensures email == [] && password == [] && error == []
      ensures signInCalls == [] && reported == [] && navigations == []
    {
      email := [];
      password := [];
      error := [];
      signInCalls := [];
      reported := [];
      navigations := [];
    }

    method SetEmail(value: string)
      modifies this
      ensures email == value
      ensures password == old(password) && error == old(error)
      ensures signInCalls == old(signInCalls) && reported == old(reported) && navigations == old(navigations)
    {
      email := value;
    }

    method SetPassword(value: string)
      modifies this
      ensures password == value
      ensures email == old(email) && error == old(error)
      ensures signInCalls == old(signInCalls) && reported == old(reported) && navigations == old(navigations)
    {
      password := value;
    }

    /**
     * `handleSubmit`. A validation error is shown and the sign-in call is skipped; otherwise the
     * sign-in call is made with the typed credentials, and its result (a parameter here) either
     * reports the user and moves to the dashboard or shows its message, falling back to the
     * default text when the message is empty.
     */
    method HandleSubmit(result: SignInResult)
      modifies this
      ensures email == old(email) && password == old(password)
      ensures ValidateLogin(email, password).Some? ==>
        && error == ValidateLogin(email, password).value
        && signInCalls == old(signInCalls) && reported == old(reported) && navigations == old(navigations)
      ensures ValidateLogin(email, password).None? ==> signInCalls == old(signInCalls) + [(email, password)]
      ensures ValidateLogin(email, password).None? && result.SignedIn? ==>
        && error == []
        && reported == old(reported) + [result.user]
        && navigations == old(navigations) + [DASHBOARD_PATH]
      ensures ValidateLogin(email, password).None? && result.SignInFailed? ==>
        && error == MessageOr(result.message, LOGIN_FAILED)
        && reported == old(reported) && navigations == old(navigations)
    {
      error := [];
      var invalid := ValidateLogin(email, password);
      if invalid.Some? {
        error := invalid.value;
        return;
      }
      signInCalls := signInCalls + [(email, password)];
      match result {
        case SignedIn(user) =>
          reported := reported + [UserData(user.email, user.uid)];
          navigations := navigations + [DASHBOARD_PATH];
        case SignInFailed(message) =>
          error := MessageOr(message, LOGIN_FAILED);
      }
    }
  }
}

=== FILE: text.dfy ===
/**
 * The JavaScript string operations the components rely on: `trim`, `toLowerCase`,
 * `includes` and `replace` with a one-character string pattern.
 */
module Text {

  /** ECMAScript WhiteSpace and LineTerminator code points: the set `trim` removes and `\s` matches. */
  predicate IsSpace(c: char) {
    || c == '\t' || c == '\n' || c == '\U{B}' || c == '\U{C}' || c == '\r'
    || c == ' ' || c == '\U{A0}' || c == '\U{1680}'
    || ('\U{2000}' <= c <= '\U{200A}')
    || c == '\U{2028}' || c == '\U{2029}' || c == '\U{202F}' || c == '\U{205F}' || c == '\U{3000}'
    || c == '\U{FEFF}'
  }

  predicate AllSpace(s: string) {
    forall k :: 0 <= k < |s| ==> IsSpace(s[k])
  }

  /** `String.prototype.trimStart`: drop leading white space. */
  function TrimStart(s: string): (r: string)
    ensures |r| <= |s|
  {
    if s == [] || !IsSpace(s[0]) then s else TrimStart(s[1..])
  }

  /** `String.prototype.trimEnd`: drop trailing white space. */
  function TrimEnd(s: string): (r: string)
    ensures |r| <= |s|
  {
    if s == [] || !IsSpace(s[|s| - 1]) then s else TrimEnd(s[..|s| - 1])
  }

  /** `TrimStart` keeps a suffix, drops only white space, and stops at the first other character. */
  lemma {:induction false} TrimStartDropsSpace(s: string)
    ensures var r := TrimStart(s); r == s[|s| - |r|..] && AllSpace(s[..|s| - |r|]) && (r == [] || !IsSpace(r[0]))
  {
    if s != [] && IsSpace(s[0]) {
      TrimStartDropsSpace(s[1..]);
      var r := TrimStart(s[1..]);
      assert s[1..][|s[1..]| - |r|..] == s[|s| - |r|..];
      assert s[..|s| - |r|] == [s[0]] + s[1..][..|s[1..]| - |r|];
    }
  }

  /** `TrimEnd` keeps a prefix, drops only white space, and stops at the last other character. */
  lemma {:induction false} TrimEndDropsSpace(s: string)
    ensures var r := TrimEnd(s); r == s[..|r|] && AllSpace(s[|r|..]) && (r == [] || !IsSpace(r[|r| - 1]))
  {
    if s != [] && IsSpace(s[|s| - 1]) {
      var p := s[..|s| - 1];
      TrimEndDropsSpace(p);
      var r := TrimEnd(p);
      assert p[..|r|] == s[..|r|];
      assert s[|r|..] == p[|r|..] + [s[|s| - 1]];
    }
  }

  /** `String.prototype.trim`: drop leading and trailing white space. */
  function Trim(s: string): (r: string)
    ensures |r| <= |s|
    ensures r == [] || (!IsSpace(r[0]) && !IsSpace(r[|r| - 1]))
    ensures IsMiddle(s, r)
  {
    var t := TrimStart(s);
    var r := TrimEnd(t);
    TrimStartDropsSpace(s);
    TrimEndDropsSpace(t);
    TrimmedMiddle(s, t, r);
    r
  }

  /** `m` is what is left of `s` once a run of white space is cut from each end. */
  predicate IsMiddle(s: string, m: string) {
    exists i :: 0 <= i <= |s| - |m| && m == s[i..i + |m|] && AllSpace(s[..i]) && AllSpace(s[i + |m|..])
  }

  /** Cutting leading white space and then trailing white space leaves a middle with no white space at either end. */
  lemma {:induction false} TrimmedMiddle(s: string, t: string, r: string)
    requires |t| <= |s| && t == s[|s| - |t|..] && AllSpace(s[..|s| - |t|]) && (t == [] || !IsSpace(t[0]))
    requires |r| <= |t| && r == t[..|r|] && AllSpace(t[|r|..]) && (r == [] || !IsSpace(r[|r| - 1]))
    ensures |r| <= |s|
    ensures r == [] || (!IsSpace(r[0]) && !IsSpace(r[|r| - 1]))
    ensures IsMiddle(s, r)
  {
    var i := |s| - |t|;
    assert r == [] || r[0] == t[0];
    assert r == s[i..i + |r|];
    assert s[i + |r|..] == t[|r|..];
  }

  /** `!s.trim()` in JavaScript: nothing but white space, so that trimming leaves nothing (`TrimEmptyIffBlank`). */
  predicate IsBlank(s: string) {
    AllSpace(s)
  }

  /** Trimming leaves the empty string exactly when every character is white space. */
  lemma TrimEmptyIffBlank(s: string)
    ensures Trim(s) == [] <==> IsBlank(s)
  {
    var r := Trim(s);
    var i :| 0 <= i <= |s| - |r| && r == s[i..i + |r|] && AllSpace(s[..i]) && AllSpace(s[i + |r|..]);
    if r == [] {
      forall k | 0 <= k < |s| ensures IsSpace(s[k]) {
        if k < i {
          assert s[k] == s[..i][k];
        } else {
          assert s[k] == s[i..][k - i];
        }
      }
    } else {
      assert s[i] == r[0];
    }
  }

  /** ASCII lower-casing of one character. */
  function LowerChar(c: char): char {
    if 'A' <= c <= 'Z' then (c as int + 32) as char else c
  }

  /** `String.prototype.toLowerCase` restricted to the ASCII letters. */
  function Lower(s: string): (r: string)
    ensures |r| == |s|
    ensures forall k :: 0 <= k < |s| ==> r[k] == LowerChar(s[k])
  {
    seq(|s|, k requires 0 <= k < |s| => LowerChar(s[k]))
  }

  lemma LowerIdempotent(s: string)
    ensures Lower(Lower(s)) == Lower(s)
  {
    assert forall k :: 0 <= k < |s| ==> Lower(Lower(s))[k] == Lower(s)[k];
  }

  lemma LowerCharKeepsSpace(c: char)
    ensures IsSpace(LowerChar(c)) <==> IsSpace(c)
  {
  }

  /** Lower-casing never turns a non-space into a space or back: blankness is preserved. */
  lemma LowerKeepsBlank(s: string)
    ensures IsBlank(Lower(s)) <==> IsBlank(s)
  {
    forall k | 0 <= k < |s| ensures IsSpace(Lower(s)[k]) <==> IsSpace(s[k]) {
      LowerCharKeepsSpace(s[k]);
    }
  }

  /** `sub` occurs at offset `i` of `s`. */
  predicate OccursAt(s: string, sub: string, i: int) {
    0 <= i && i + |sub| <= |s| && s[i..i + |sub|] == sub
  }

  /** `s.includes(sub)`: `sub` occurs somewhere in `s`; the empty string occurs everywhere. */
  predicate Contains(s: string, sub: string) {
    (|sub| <= |s| && s[..|sub|] == sub) || (|s| > 0 && Contains(s[1..], sub))
  }

  /** `Contains` agrees with the offset-based definition of a substring. */
  lemma {:induction false} ContainsIff(s: string, sub: string)
    ensures Contains(s, sub) <==> exists i :: OccursAt(s, sub, i)
  {
    if |sub| <= |s| && s[..|sub|] == sub {
      assert OccursAt(s, sub, 0);
    } else if |s| > 0 {
      ContainsIff(s[1..], sub);
      if Contains(s[1..], sub) {
        var i :| OccursAt(s[1..], sub, i);
        assert s[i + 1..i + 1 + |sub|] == s[1..][i..i + |sub|];
        assert OccursAt(s, sub, i + 1);
      } else if i :| OccursAt(s, sub, i) {
        assert i != 0;
        assert s[1..][i - 1..i - 1 + |sub|] == s[i..i + |sub|];
        assert OccursAt(s[1..], sub, i - 1);
        assert false;
      }
    }
  }

  lemma ContainsEmpty(s: string)
    ensures Contains(s, [])
  {
    assert s[..0] == [];
  }

  lemma ContainsSelf(s: string)
    ensures Contains(s, s)
  {
    assert s[..|s|] == s;
  }

  /** A string only contains strings no longer than itself. */
  lemma {:induction false} ContainsShorter(s: string, sub: string)
    requires Contains(s, sub)
    ensures |sub| <= |s|
  {
    if !(|sub| <= |s| && s[..|sub|] == sub) {
      ContainsShorter(s[1..], sub);
    }
  }

  /** Every character of an included pattern occurs in the string. */
  lemma ContainsKeepsChars(s: string, sub: string, c: char)
    requires Contains(s, sub) && c in sub
    ensures c in s
  {
    ContainsIff(s, sub);
    var i :| OccursAt(s, sub, i);
    var k :| 0 <= k < |sub| && sub[k] == c;
    assert s[i..i + |sub|][k] == s[i + k];
  }

  /** A pattern holding a character the string lacks is not included in it. */
  lemma MissingCharExcludes(s: string, sub: string, c: char)
    requires c in sub && c !in s
    ensures !Contains(s, sub)
  {
    if Contains(s, sub) {
      ContainsKeepsChars(s, sub, c);
    }
  }

  /** Two strings that contain each other are equal. */
  lemma MutualContainment(a: string, b: string)
    requires Contains(a, b) && Contains(b, a)
    ensures a == b
  {
    ContainsShorter(a, b);
    ContainsShorter(b, a);
    if !(a[..|b|] == b) {
      ContainsShorter(a[1..], b);
    }
  }

  /** The index of the first `c` in `s`, or `|s|` when there is none (`indexOf`, with `|s|` for -1). */
  function IndexOf(s: string, c: char): (r: nat)
    ensures r <= |s|
    ensures r < |s| ==> s[r] == c
  {
    if s == [] then 0
    else if s[0] == c then 0
    else 1 + IndexOf(s[1..], c)
  }

  /** No `c` comes before the index `IndexOf` reports. */
  lemma {:induction false} IndexOfIsFirst(s: string, c: char)
    ensures forall k :: 0 <= k < IndexOf(s, c) ==> s[k] != c
  {
    if s != [] && s[0] != c {
      IndexOfIsFirst(s[1..], c);
      forall k | 0 < k < IndexOf(s, c) ensures s[k] != c {
        assert s[k] == s[1..][k - 1];
      }
    }
  }

  /** A `c` at `i` with none before it is what `IndexOf` reports. */
  lemma IndexOfAt(s: string, c: char, i: nat)
    requires i < |s| && s[i] == c
    requires forall k :: 0 <= k < i ==> s[k] != c
    ensures IndexOf(s, c) == i
  {
    IndexOfIsFirst(s, c);
  }

  /** `s.replace(from, to)` with one-character strings: only the first occurrence is replaced. */
  function ReplaceFirst(s: string, from: char, to: char): (r: string)
    ensures |r| == |s|
  {
    var k := IndexOf(s, from);
    if k < |s| then s[..k] + [to] + s[k + 1..] else s
  }

  /** Without an occurrence of `from` the string is returned unchanged. */
  lemma ReplaceFirstNoMatch(s: string, from: char, to: char)
    requires from !in s
    ensures ReplaceFirst(s, from, to) == s
  {
  }

  /** Character by character: the first `from`, and only it, becomes `to`; every other character stays. */
  lemma ReplaceFirstEach(s: string, from: char, to: char)
    ensures forall k :: 0 <= k < |s| ==>
      ReplaceFirst(s, from, to)[k] == if k == IndexOf(s, from) then to else s[k]
  {
    var i := IndexOf(s, from);
    if i < |s| {
      var r := ReplaceFirst(s, from, to);
      forall k | 0 <= k < |s| ensures r[k] == if k == i then to else s[k] {
        if k < i {
          assert r[k] == s[..i][k];
        } else if k > i {
          assert r[k] == s[i + 1..][k - i - 1];
        }
      }
    }
  }

  /** The character at the first occurrence of `from`, and only there, becomes `to`. */
  lemma ReplaceFirstAt(s: string, from: char, to: char, k: nat)
    requires k < |s| && s[k] == from && from !in s[..k]
    ensures ReplaceFirst(s, from, to) == s[..k] + [to] + s[k + 1..]
  {
    forall m | 0 <= m < k ensures s[m] != from {
      assert s[m] == s[..k][m];
    }
    IndexOfAt(s, from, k);
  }
}

=== FILE: wrappers.dfy ===
/** Option and Outcome values used where the source has `undefined`/`null` and thrown errors. */
module Wrappers {

  datatype Option<+T> = None | Some(value: T)

  /** The settled state of a call that either returns normally or throws an Error with a message. */
  datatype Outcome = Ok | Failed(message: string)

  /** `err.message || fallback`: an empty message falls back to the fixed text. */
  function MessageOr(message: string, fallback: string): (r: string)
    ensures message == [] ==> r == fallback
    ensures message != [] ==> r == message
  {
    if message != [] then message else fallback
  }
}
